=== FILE: README.md ===
# rate-limit-ext admission control in Dafny

This project models the admission-control engine of rate-limit-ext, a client-side rate limiter that wraps an HTTP client. The engine exists in three copies:

- src/rateLimitExt.js and src/index.js count dispatched calls. Each call weighs one against `reqLimit` within a sliding window of `period` milliseconds. The two files differ only in how the constructor validates its options and in the accessors.
- src/rateLimitWeight.js weighs each call by its first argument against `weightLimit`.

All three keep the same two collections:

- **the ledger `lasts`** holds one entry per dispatched call. An entry records `millis` (the issue time, overwritten with the finish time when the call completes), `finished` and, in the weighted copy, `weight`;
- **the FIFO `queue`** holds calls waiting for room.

`updateLasts` prunes the ledger. `isAvailable` (`calcWeights` in the weighted copy) answers 0 (send now), -1 (blocked until a completion) or a positive delay. `handleReq` sends a call or queues it. `onFinish` marks the entry finished and re-examines the queue head. A timer armed by `onFinish` later sends a call without asking again.

The modules:

- `Maybe`: option and result types, and JavaScript truthiness of an optional number.
- `Calls`: calls, in-flight calls, settlements, and the multiset of promise handles the engine holds.
- `Ledger`: ledger entries, `updateLasts` (`Prune`), `onFinish`'s marking, and weight sums.
- `LedgerSort`: the in-place `lasts.sort((a, b) => b.millis - a.millis)` as a stable insertion sort.
- `CountLimiter` and `CountEngine`: the unit-count copies. The configuration, both constructors, the setters and `isAvailable`, then `handleReq`, `onFinish`, `sendNext` and the timer as steps of a state machine.
- `WeightLimiter` and `WeightEngine`: the weighted copy, structured the same way.

Every reaction (admission, completion, timer) is a pure function of the state and an explicit time `now`. The engines follow the code as written, including its defects. The corrected definitions sit beside them, under "## Findings", with the intended properties proved.

## Model

| member | source | states |
|---|---|---|
| Ledger.Prune | src/rateLimitExt.js:71-76 | An entry survives exactly when it is unfinished with `countBeforeReq` off, or younger than `period`. The survivors form an order-preserving subsequence of the ledger. |
| Ledger.PruneCounts | src/rateLimitWeight.js:106-111 | The pruned ledger holds each retained entry exactly as often as the ledger did, and each dropped entry zero times. |
| Ledger.PruneIdempotent | src/index.js:72-77 | Pruning twice at the same `now` gives the same ledger as pruning once. |
| Ledger.PruneKeepsAllRetained | src/rateLimitWeight.js:106-111 | A ledger whose entries all satisfy the keep condition is returned unchanged. |
| Ledger.PruneKeepsIssueOrder | src/rateLimitExt.js:71-76 | Pruning a ledger kept in issue order keeps it in issue order. |
| Ledger.PruneWeight | src/rateLimitWeight.js:102-111 | The pruned ledger weighs exactly the weight of the entries the keep condition selects. |
| Ledger.MarkFinished | src/rateLimitExt.js:30-32 | `onFinish` marks only the completing call's entry finished, with `millis` set to `now`. Every other entry and all ids and weights are unchanged. |
| Ledger.UnfinishedCount | src/rateLimitExt.js:61 | The unfinished count never exceeds the ledger length. It equals the length exactly when no entry is finished. |
| Ledger.WeightSplits | src/rateLimitWeight.js:76-80 | The total weight is the unfinished weight plus the finished weight. |
| CountLimiter.ResolveExt | src/rateLimitExt.js:1-18 | Given an options object: a truthy `reqPerSecond` sets the limit to it with a 1000 ms window. Otherwise a truthy `period` or `reqLimit` replaces the defaults 1000 and 18, and a falsy one leaves its default. |
| CountLimiter.ConstructIndex | src/index.js:1-19 | Given an options object, construction succeeds exactly when `reqPerSecond` is truthy or both `reqLimit` and `period` are. Otherwise it fails with "check  options!!". A success configures the limiter exactly as rateLimitExt.js's constructor would. |
| CountLimiter.SetRPS | src/rateLimitExt.js:123-126 | After `setRPS(r)`, `getReqLimit` is `r` and `getPeriod` is 1000. For a truthy `r` this equals constructing with `reqPerSecond: r`. |
| CountLimiter.SetPeriod | src/rateLimitExt.js:131-140 | `getPeriod` returns what `setPeriod` stored. The limit and the counting mode are unchanged. |
| CountLimiter.SetReqLimit | src/rateLimitExt.js:145-154 | `getReqLimit` returns what `setReqLimit` stored. The window and the counting mode are unchanged. |
| CountLimiter.SettersCommute | src/rateLimitExt.js:131-154 | The two setters commute, and setting a value read back from its getter changes nothing. |
| CountLimiter.FirstFinished | src/rateLimitExt.js:63-67 | The scan finds the first finished entry in ledger order. If it finds none, no entry is finished. |
| CountLimiter.IsAvailable | src/rateLimitExt.js:58-76 | Prunes, then answers:<br>- 0 exactly when fewer than `reqLimit` entries remain;<br>- -1 exactly when the unfinished ones alone reach the limit;<br>- otherwise `period - (now - millis)` of the first finished entry in ledger order.<br>That entry always exists, so `undefined` is unreachable, and the delay is at least 1. It is at most `period` when no entry is from the future. |
| CountEngine.Send | src/rateLimitExt.js:43-50 | `sendReq` pushes one unfinished entry stamped `now` under the next id and puts the call in flight under that id. The queue, timers and settlements are unchanged, and the engine holds exactly one more promise handle. |
| CountEngine.SendNext | src/rateLimitExt.js:20-24 | `sendNext` on an empty queue changes nothing. Otherwise exactly the queue head leaves the queue and is sent: one entry is pushed and the head goes in flight. No promise handle is gained or lost. |
| CountEngine.Settle | src/rateLimitExt.js:30-32 | `onFinish` marks only the completing call's entry finished, with `millis` set to `now`. The call leaves the in-flight list and its promise settles with its outcome. The queue, timers and next id are unchanged. |
| CountEngine.Admit | src/rateLimitExt.js:77-86 | `handleReq` sends exactly when the pruned ledger holds fewer than `reqLimit` entries. After the push it holds at most `reqLimit`. Otherwise the call joins the queue tail. Either way the engine holds one more promise handle. |
| CountEngine.Drain | src/rateLimitExt.js:20-42 | With an empty queue nothing changes. Otherwise:<br>- below the limit, the head alone leaves the queue and is sent now;<br>- with some entry finished, exactly one timer is appended, carrying `isAvailable`'s delay (at least 1 ms), and the queue is untouched;<br>- with the unfinished entries at the limit, nothing happens.<br>No promise handle is gained or lost. |
| CountEngine.Complete | src/rateLimitExt.js:43-57 | A completion settles the call's promise with its outcome. Apart from that settlement, the resulting state is exactly `Drain` applied after the entry is marked finished and the call leaves the in-flight list. With an empty queue it changes nothing but the finished entry and the in-flight list. Otherwise at most the queue head leaves. |
| CountEngine.FireTimer | src/index.js:38-41 | A firing timer sends the current queue head, if any, without asking `isAvailable`: the entry is pushed and the head leaves the queue. |
| CountEngine.FailureFreesLikeSuccess | src/rateLimitExt.js:49-56 | A failing call updates the ledger, queue, timers and in-flight calls exactly as a succeeding one does. Only its promise's settlement differs. |
| CountEngine.StepsPreserveWf | src/rateLimitExt.js:43-48 | Admission, completion and both timer steps keep the ledger in issue order with every id below the next one to issue. |
| CountEngine.DoubleTimerOverAdmits | src/rateLimitExt.js:37-40 | A concrete run under the code as written: limit 2, four calls, two completions 10 ms apart arm two timers. Both fire at the same instant and leave three entries inside the window. |
| CountEngine.FireTimerRechecked | src/index.js:38-41 | The corrected timer step asks `isAvailable` again. It takes the queue head only when the pruned ledger is below the limit. |
| CountEngine.RecheckedStepsStayWithinLimit | src/rateLimitExt.js:58-59 | With the corrected timer step, admission, completion and timer firing keep the ledger within `reqLimit`. The pruned ledger at any time is then within it too. |
| CountEngine.RecheckedRunStaysWithinLimit | src/rateLimitExt.js:33-41 | With the corrected timer step, every run of events from a state within the limit ends within the limit. |
| LedgerSort.Sort | src/rateLimitWeight.js:87 | The sorted ledger is a permutation of the ledger, ordered newest `millis` first. |
| LedgerSort.SortKeepsWeight | src/rateLimitWeight.js:87 | Sorting changes no selected weight. |
| LedgerSort.SortKeepsMembers | src/rateLimitWeight.js:87 | An entry is in the sorted ledger exactly when it is in the ledger. |
| LedgerSort.SortIsStable | src/rateLimitWeight.js:87 | The sort is stable, as JavaScript's `Array.prototype.sort` is: for every timestamp, the entries stamped with it keep their ledger order. |
| WeightLimiter.Construct | src/rateLimitWeight.js:11-25 | Destructuring defaults of 18, 1000 and false replace only undefined options. An options object passed first overwrites only the weight limit, with the last of its truthy `weightLimit`, `period` and `countBeforeResp`. |
| WeightLimiter.FirstArgumentPeriodMisplaced | src/rateLimitWeight.js:17-19 | `{period: p}` passed first yields weight limit `p` and a 1000 ms window. |
| WeightLimiter.ConstructIntended | src/rateLimitWeight.js:15-20 | Corrected constructor: each truthy option of an object passed first overrides the setting of the same name. |
| WeightLimiter.OptionsFirstOrSecond | src/rateLimitWeight.js:13-19 | With the corrected constructor, options passed first or second configure the same limiter. |
| WeightLimiter.SetPeriod | src/rateLimitWeight.js:156-165 | `getPeriod` returns what `setPeriod` stored. Nothing else changes. |
| WeightLimiter.SetWeightLimit | src/rateLimitWeight.js:170-179 | `getWeightLimit` returns what `setWeightLimit` stored. Nothing else changes. |
| WeightLimiter.Scan | src/rateLimitWeight.js:88-96 | The loop stops at the first index whose running weight relieves the demand. If it finds none, no index relieves it. |
| WeightLimiter.CalcWeights | src/rateLimitWeight.js:71-100 | Answers:<br>- 0 when the total plus the new weight is below the limit;<br>- -1 when the unfinished weight plus the new weight reaches it;<br>- otherwise the remaining window of the first relieving entry of the whole ledger sorted newest first, with the ledger left sorted in place.<br>It throws when no entry relieves the demand, and also when that remaining window is exactly -2, the value the code uses for "nothing found". On non-negative weights some entry always relieves. |
| WeightLimiter.IsAvailable | src/rateLimitWeight.js:102-111 | On non-negative weights:<br>- 0 exactly when the pruned ledger plus the new weight fits;<br>- -1 exactly when its unfinished weight blocks;<br>- otherwise a delay of at least 1 ms.<br>The ledger left behind is a permutation of the pruned one. |
| WeightLimiter.IsAvailableKeepsNonNegative | src/rateLimitWeight.js:98 | On non-negative weights `isAvailable` never throws, and the ledger keeps non-negative weights. |
| WeightLimiter.AnswerIsExhaustive | src/rateLimitWeight.js:82-98 | On a pruned ledger, 0, -1 and a delay of at least 1 ms each hold exactly in their own case. |
| WeightLimiter.WholeLedgerRelieves | src/rateLimitWeight.js:90-98 | In the delay branch the full scan relieves the demand, so the loop always finds an index. |
| WeightLimiter.DelayIsPositive | src/rateLimitWeight.js:93 | On a pruned ledger the delay is at least 1 ms, because the relieving entry is no older than a finished entry still in the window. |
| WeightLimiter.DelayWithinWindow | src/rateLimitWeight.js:93 | A delay that is answered is at most `period` when no entry is from the future. |
| WeightLimiter.SentinelDelayThrows | src/rateLimitWeight.js:72-98 | On an unpruned ledger with an unfinished weight 2 issued at 998 and a finished weight 1 at 990, limit 3 per second, `calcWeights(0)` at 2000 computes a delay of -2 and throws. |
| WeightLimiter.DelayKeyedToNewest | src/rateLimitWeight.js:86-96 | The delay is keyed to the entry with the newest `millis` whose entries at or after it outweigh the excess, while every newer instant's entries do not. The code throws instead when that delay is exactly -2. |
| WeightLimiter.OversizedIsBlocked | src/rateLimitWeight.js:83-84 | A call weighing at least the limit is answered -1 on every ledger of non-negative weights. |
| WeightLimiter.NewestFirstDelayTooShort | src/rateLimitWeight.js:87-93 | Limit 3, finished weights 1 at 100 and 1 at 900, a call of weight 2 at 1000: the code waits 100 ms, yet at 1100 the call still does not fit. Oldest first gives 900. |
| WeightLimiter.NewestFirstDelayTooLong | src/rateLimitWeight.js:87-93 | Limit 4, finished weights 2 at 100, 1 at 900 and 1 at 950, a call of weight 1 at 1000: the code waits 900 ms, yet the call fits at 1100. Oldest first gives 100. |
| WeightLimiter.EarliestRelief | src/rateLimitWeight.js:86-96 | Finds the earliest finish time among the candidates by which more than the excess of finished weight has aged out. If it finds none, no finish time suffices. |
| WeightLimiter.CalcWeightsOldestFirst | src/rateLimitWeight.js:86-96 | Corrected `calcWeights`: 0 and -1 as before. Otherwise the delay is the remaining window of a finished entry whose finish frees more than the excess. |
| WeightLimiter.OldestFirstWaitIsMinimal | src/rateLimitWeight.js:86-96 | After the corrected delay the call fits. With `calculateBeforeResp` off, it fits at no earlier instant. On a pruned ledger the delay is at least 1 ms. |
| WeightLimiter.FitsAfterOldestFirstDelay | src/rateLimitWeight.js:82 | At `now` plus the corrected delay, the pruned ledger plus the new weight is below the limit. |
| WeightEngine.SplitWeight | src/rateLimitWeight.js:112-115 | The first argument becomes the weight and the rest are forwarded unchanged. In the model, a missing first argument or an `Opaque` one, which stands for a value whose sum with the ledger total is not a number, gives no weight. |
| WeightEngine.Send | src/rateLimitWeight.js:55-61 | `sendReq` pushes one unfinished entry stamped `now`, carrying the call's weight under the next id, and puts the call in flight under that id. The queue, timers and settlements are unchanged. The ledger total grows by the weight, and the engine holds one more handle. |
| WeightEngine.Admit | src/rateLimitWeight.js:112-125 | `handleReq` takes one of three paths:<br>- 0 sends the call;<br>- a thrown check rejects it with "unexpected error", after pruning and sorting;<br>- any other answer appends it to the queue tail and leaves the ledger as `isAvailable` left it.<br>Exactly one promise handle is added. |
| WeightEngine.AdmitSendsIffFits | src/rateLimitWeight.js:117-123 | On non-negative weights a call is sent exactly when the pruned ledger plus its weight fits, and the total then stays below the limit. Otherwise it is queued. |
| WeightEngine.Finish | src/rateLimitWeight.js:41-42 | `onFinish` marks only the completing call's entry finished, with `millis` set to `now`, and the call leaves the in-flight list. The queue, timers, settlements and next id are unchanged. |
| WeightEngine.Drain | src/rateLimitWeight.js:43-53 | With an empty queue nothing changes. Otherwise the head's answer decides:<br>- 0: the head alone is sent now;<br>- a positive delay: the head alone moves into one timer with that delay;<br>- `calcWeights` throws: a throw is reported, and the queue and timers are untouched;<br>- -1 or any other answer: no throw, and the queue and timers are untouched.<br>No handle is gained or lost. |
| WeightEngine.DrainFollowsBranches | src/rateLimitWeight.js:43-53 | On non-negative weights `onFinish` never throws. It:<br>- sends the head when it fits, leaving the total below the limit;<br>- arms a timer of at least 1 ms when finished weight could make room;<br>- leaves the queue alone when unfinished weight blocks. |
| WeightEngine.Retry | src/rateLimitWeight.js:62-69 | On the success path `sendReq` runs `onFinish` a second time, from its catch, only when the first run threw. The reported throw is the first run's, and at most the queue head leaves. |
| WeightEngine.Complete | src/rateLimitWeight.js:40-69 | A completion settles the call's promise with its outcome, or with "unexpected error" when `onFinish` threw. When it did not throw, the rest of the state is exactly `Drain` applied after the entry is marked finished and the call leaves the in-flight list. With an empty queue only the finished entry and the in-flight list change. At most the queue head leaves. No handle is lost. |
| WeightEngine.FireTimer | src/rateLimitWeight.js:50-52 | A firing timer sends the call it carries without asking `isAvailable`: the timer leaves the list, its entry is pushed under the next id, and the call goes in flight. The queue and settlements are unchanged. |
| WeightEngine.FailureFreesLikeSuccess | src/rateLimitWeight.js:62-69 | In the model, a failing call updates the ledger, queue, timers and in-flight calls exactly as a succeeding one does. The code agrees whenever `onFinish` does not throw, which holds on non-negative weights (see `WeightEngine.Retry` under Left out). |
| WeightEngine.StepsKeepWeightsNonNegative | src/rateLimitWeight.js:55-61 | When call weights are non-negative, every step keeps every ledger, queue and timer weight non-negative. |
| WeightEngine.DrainNonNegative | src/rateLimitWeight.js:43-53 | On non-negative weights `onFinish` keeps the weights non-negative and never throws. |
| WeightEngine.OversizedHeadStalls | src/rateLimitWeight.js:44-53 | A queue head weighing at least the limit is never popped: the queue, timers and in-flight calls stay as they were. |
| WeightEngine.ShortDelayArms | src/rateLimitWeight.js:43-53 | A run from a fresh limiter with limit 3 per second, under the code as written:<br>- two calls of weight 1 are sent at t and t+50;<br>- the first completes at t+100;<br>- a call of weight 2 is queued at t+150 (answer -1);<br>- the second completes at t+900.<br>`onFinish` then moves the queued call into a 200 ms timer. |
| WeightEngine.ShortDelayTimerOverfills | src/rateLimitWeight.js:50-52 | That timer fires at t+1100 and sends the call unchecked, although `handleReq` would not send it then. The window then weighs 3 against a limit of 3, which admission never allows. |

## Left out

- The HTTP client (axios), `myAxios.create()` and the verb methods `get`/`post`/`put`/`delete`/`request`/`patch`. A call is modelled as a verb, its arguments and a promise handle. Its completion is an event carrying success or failure.
- `Date.now`, `setTimeout` and the promise machinery. Time is the explicit `now` of each event, and the engines do not assume it grows. A timer is recorded with its delay, and its firing is an event the environment may deliver at any time.
- Promise settlement timing. In the code `onFinish` runs before the caller's promise settles, and `await sendNext()` chains the next call's settlement into the current one. The model records a settlement in the same step as the completion.
- `getRPS` (src/rateLimitExt.js:116-118): floating-point division.
- src/rateLimitWeigth.js is not part of this model. It is a non-working duplicate of src/rateLimitWeight.js.
- Weights that are not integers. The model covers integer weights (`Num`) only. JavaScript adds `null`, `false` and `true` as 0, 0 and 1; the model expects the caller to have written them as `Num`.
- Weights that are arrays, strings or objects. `calcWeights` sums with `+` (src/rateLimitWeight.js:79, 82, 83, 91), which joins such a value with the total as strings, so with a total of 2 the weight `[5]` counts as 25.
  - Some such calls are sent, for example `[]`, `""`, or `[n]` on an empty ledger. Once one is in the ledger, every later total is a string, so weights 1, `[5]`, 1 sum to `"151"`.
  - Others make every comparison false and end in the "unexpected error" throw: a missing first argument, a plain object, or a non-numeric string.
  - The model has no string sums. `Opaque` stands for a value whose sum is not a number, and such a call is rejected. Fractional weights are not modelled either.
- `countBeforeResp` passed first to the weighted constructor is a number. JavaScript would coerce `true` to 1 in the limit comparisons.
- `handleReq`'s synchronous throw in the weighted copy is recorded as a rejected settlement.
- The caller's own argument list `arguments` is kept as a sequence of values. It is not inspected beyond the weighted copy's first argument.
- WeightLimiter.CalcWeights: no longer promises an answer on every ledger of non-negative weights. The code mistakes a computed delay of exactly -2 for its "nothing found" value and throws (WeightLimiter.SentinelDelayThrows). After pruning, every delay is at least 1 ms, so `isAvailable` still always answers on non-negative weights.
- WeightLimiter.DelayWithinWindow: bounds the delay only when one is answered. On a ledger that is not pruned the delay may be -2, and the code throws.
- WeightEngine.Retry: runs `onFinish` a second time after a throw on the failure path too. The code runs it once there. The difference is limited to ledgers holding a negative weight, since on non-negative weights `onFinish` never throws.
- CountLimiter.ConstructIndex: the model always receives an options object. Called without one, both constructors (src/rateLimitExt.js:1-4, src/index.js:1-4) throw a `TypeError` while destructuring it, not "check  options!!".
- Fractional `reqLimit`, `period`, `reqPerSecond` and `setRPS`/`setPeriod`/`setReqLimit` arguments. They are JavaScript numbers and may be fractions such as 0.5; the model takes them as integers.
- CountLimiter.IsAvailable: the upper bound `period` on the delay is stated only when no ledger entry is from the future, because the code reads the wall clock, which may step backwards.

## Findings

| source | as written | input that shows it | evidently intended | confidence | as-written member | corrected member |
|---|---|---|---|---|---|---|
| src/rateLimitExt.js:37-40 | Each `onFinish` that gets a positive delay arms a timer, and each timer later runs `sendNext` without asking `isAvailable` again. | Limit 2, window 1000 ms. Four calls at t, two sent and two queued. The sent ones finish at t+10 and t+20, arming timers of 1000 and 990 ms. Both fire at t+1010 and send both queued calls, leaving three entries in the window. | Re-check availability when the timer fires. | not executed | CountEngine.DoubleTimerOverAdmits | CountEngine.FireTimerRechecked, CountEngine.RecheckedRunStaysWithinLimit |
| src/rateLimitWeight.js:86-96 | The delay comes from the whole ledger sorted newest first, so it is keyed to the newest entries rather than the oldest finished ones that age out first. | Limit 3, window 1000 ms. Finished entries of weight 1 at 100 and 900, and a call of weight 2 at 1000. The answer is 100, but at 1100 the call still does not fit. With weights 2, 1, 1 at 100, 900, 950 and a call of weight 1, the answer is 900 though the call fits at 1100. From a fresh limiter, the run in WeightEngine.ShortDelayArms arms a 200 ms timer whose call fills the window to the limit. | The earliest instant at which enough finished weight has aged out. | not executed | WeightLimiter.NewestFirstDelayTooShort, WeightLimiter.NewestFirstDelayTooLong, WeightEngine.ShortDelayArms, WeightEngine.ShortDelayTimerOverfills | WeightLimiter.CalcWeightsOldestFirst, WeightLimiter.OldestFirstWaitIsMinimal |
| src/rateLimitWeight.js:17-19 | An options object passed first writes its `period` and `countBeforeResp` into `weightLimit`. | `{period: 5000}` as the only argument gives weight limit 5000 and a 1000 ms window. | Each option overrides the setting of its own name. | not executed | WeightLimiter.FirstArgumentPeriodMisplaced | WeightLimiter.ConstructIntended, WeightLimiter.OptionsFirstOrSecond |

=== FILE: calls.dfy ===
/**
 * The remote calls a limiter forwards to its client, and what becomes of them.
 * The client itself (an HTTP library) is abstract: a dispatched call later
 * completes with a success value or a failure, and that is all the limiter sees.
 */
module Calls {

  /** The verb methods the limiter exposes; each only names the client method to call. */
  datatype Verb = Get | Post | Put | Delete | Request | Patch

  /** A positional argument: a number, or any other value the limiter only forwards. */
  datatype Arg = Num(n: int) | Opaque(tag: nat)

  /** One call made through a verb method. `handle` identifies the promise returned to the caller. */
  datatype Call = Call(handle: nat, verb: Verb, args: seq<Arg>)

  /** Why a promise was rejected: the client failed, or the limiter threw `'unexpected error'`. */
  datatype Reason = ClientError(code: nat) | UnexpectedError

  /** How the client's call (or the limiter around it) settled. */
  datatype Outcome = Resolved(value: nat) | Rejected(reason: Reason)

  /** A promise settled with an outcome. */
  datatype Settlement = Settlement(handle: nat, outcome: Outcome)

  /** A call handed to the client whose ledger entry has id `id`. */
  datatype Flight = Flight(id: nat, call: Call)

  function CallHandle(c: Call): nat { c.handle }

  function FlightHandle(f: Flight): nat { f.call.handle }

  function SettledHandle(t: Settlement): nat { t.handle }

  /** The bag of promise handles held by a sequence of records. */
  function Handles<T>(xs: seq<T>, h: T -> nat): multiset<nat>
  {
    if |xs| == 0 then multiset{} else multiset{h(xs[0])} + Handles(xs[1..], h)
  }

  /** The handles of two lists put end to end are the handles of each. */
  lemma {:induction false} HandlesAppend<T>(a: seq<T>, b: seq<T>, h: T -> nat)
    ensures Handles(a + b, h) == Handles(a, h) + Handles(b, h)
  {
    if |a| == 0 {
      assert a + b == b;
    } else {
      assert (a + b)[1..] == a[1..] + b;
      HandlesAppend(a[1..], b, h);
    }
  }

  /** Appending one record adds exactly its handle to the bag. */
  lemma HandlesPush<T>(xs: seq<T>, x: T, h: T -> nat)
    ensures Handles(xs + [x], h) == Handles(xs, h) + multiset{h(x)}
  {
    HandlesAppend(xs, [x], h);
    assert [x][1..] == [];
  }

  /** Removing the record at `k` removes exactly its handle from the bag. */
  lemma {:induction false} HandlesRemove<T>(xs: seq<T>, k: nat, h: T -> nat)
    requires k < |xs|
    ensures Handles(xs[..k] + xs[k+1..], h) + multiset{h(xs[k])} == Handles(xs, h)
  {
    var a, b := xs[..k], xs[k+1..];
    assert xs == a + ([xs[k]] + b);
    HandlesAppend(a, [xs[k]] + b, h);
    HandlesAppend([xs[k]], b, h);
    HandlesAppend(a, b, h);
    assert Handles([xs[k]], h) == multiset{h(xs[k])} by {
      assert [xs[k]][1..] == [];
      assert Handles([xs[k]][1..], h) == multiset{};
    }
  }

  /** `xs` with the record at `k` taken out. */
  function RemoveAt<T>(xs: seq<T>, k: nat): (r: seq<T>)
    requires k < |xs|
    ensures |r| == |xs| - 1
    ensures forall i :: 0 <= i < k ==> r[i] == xs[i]
    ensures forall i :: k <= i < |r| ==> r[i] == xs[i + 1]
  {
    xs[..k] + xs[k+1..]
  }
}

=== FILE: count_engine.dfy ===
/**
 * The event-driven part of src/rateLimitExt.js and src/index.js (identical in
 * both): `handleReq` admits a call, `onFinish` reacts to a completion, and a
 * timer armed by `onFinish` later runs `sendNext`. Each reaction is one step
 * of a state machine over an explicit time `now`.
 */
module CountEngine {
  import opened Maybe
  import opened Calls
  import opened Ledger
  import opened CountLimiter

  /**
   * The limiter's state: the ledger `lasts`, the FIFO `queue` of waiting calls,
   * the delays of the timers armed and not yet fired, the calls in the client's
   * hands, the next entry id, and the promises settled so far.
   */
  datatype State = State(
    cfg: Config,
    ledger: seq<Entry>,
    queue: seq<Call>,
    timers: seq<int>,
    flights: seq<Flight>,
    nextId: nat,
    settled: seq<Settlement>)

  function Init(cfg: Config): State
  {
    State(cfg, [], [], [], [], 0, [])
  }

  /** Every promise handle the limiter holds: queued, in flight, or settled. */
  function AllHandles(s: State): multiset<nat>
  {
    Handles(s.queue, CallHandle) + Handles(s.flights, FlightHandle) + Handles(s.settled, SettledHandle)
  }

  /** The entry `sendReq` pushes for a call it hands to the client at `now`. */
  function NewEntry(s: State, now: int): Entry
  {
    Entry(s.nextId, now, false, 1)
  }

  /**
   * `sendReq`: push an unfinished entry stamped `now` and hand the call to the
   * client; the call's promise handle moves into the in-flight list.
   */
  function Send(s: State, c: Call, now: int): (s': State)
    ensures s'.ledger == s.ledger + [Entry(s.nextId, now, false, 1)]
    ensures s'.flights == s.flights + [Flight(s.nextId, c)] && s'.nextId == s.nextId + 1
    ensures s'.cfg == s.cfg && s'.queue == s.queue && s'.timers == s.timers && s'.settled == s.settled
    ensures AllHandles(s') == AllHandles(s) + multiset{c.handle}
  {
    HandlesPush(s.flights, Flight(s.nextId, c), FlightHandle);
    s.(ledger := s.ledger + [NewEntry(s, now)],
       flights := s.flights + [Flight(s.nextId, c)],
       nextId := s.nextId + 1)
  }

  /**
   * `sendNext`: `queue.shift()` removes exactly the head, which is sent; an
   * empty queue changes nothing. No promise handle is gained or lost.
   */
  function SendNext(s: State, now: int): (s': State)
    ensures |s.queue| == 0 ==> s' == s
    ensures |s.queue| > 0 ==>
      && s'.queue == s.queue[1..]
      && s'.ledger == s.ledger + [Entry(s.nextId, now, false, 1)]
      && s'.flights == s.flights + [Flight(s.nextId, s.queue[0])]
      && s'.timers == s.timers && s'.settled == s.settled
    ensures s'.cfg == s.cfg
    ensures s'.nextId == s.nextId + |s'.flights| - |s.flights|
    ensures AllHandles(s') == AllHandles(s)
  {
    if |s.queue| == 0 then s
    else
      assert Handles(s.queue, CallHandle) == multiset{CallHandle(s.queue[0])} + Handles(s.queue[1..], CallHandle);
      Send(s.(queue := s.queue[1..]), s.queue[0], now)
  }

  /**
   * `handleReq`: send at once when `isAvailable` answers 0, otherwise append the
   * call to the queue. Either way the ledger has been pruned, and no promise
   * handle is lost or duplicated.
   */
  function Admit(s: State, c: Call, now: int): (s': State)
    ensures s'.cfg == s.cfg && s'.settled == s.settled && s'.timers == s.timers
    ensures s'.nextId == s.nextId + |s'.flights| - |s.flights|
    ensures AllHandles(s') == AllHandles(s) + multiset{c.handle}
    ensures var kept := Prune(s.ledger, now, s.cfg.period, s.cfg.countBeforeReq);
      if |kept| < s.cfg.reqLimit then
        && s'.queue == s.queue
        && s'.ledger == kept + [NewEntry(s, now)]
        && s'.flights == s.flights + [Flight(s.nextId, c)]
        && |s'.ledger| <= s.cfg.reqLimit
      else
        && s'.queue == s.queue + [c]
        && s'.ledger == kept
        && s'.flights == s.flights
  {
    var av := IsAvailable(s.ledger, s.cfg, now);
    var s1 := s.(ledger := av.ledger);
    if av.answer == Code(0) then
      Send(s1, c, now)
    else
      HandlesPush(s.queue, c, CallHandle);
      s1.(queue := s.queue + [c])
  }

  /** The state right after `onFinish` has marked the entry of flight `k` and its promise settled. */
  function Settle(s: State, k: nat, outcome: Outcome, now: int): (s': State)
    requires k < |s.flights|
    ensures |s'.ledger| == |s.ledger|
    ensures forall i :: 0 <= i < |s.ledger| ==>
      if s.ledger[i].id == s.flights[k].id then s'.ledger[i] == s.ledger[i].(finished := true, millis := now)
      else s'.ledger[i] == s.ledger[i]
    ensures s'.flights == RemoveAt(s.flights, k)
    ensures s'.settled == s.settled + [Settlement(s.flights[k].call.handle, outcome)]
    ensures s'.cfg == s.cfg && s'.queue == s.queue && s'.timers == s.timers && s'.nextId == s.nextId
  {
    var f := s.flights[k];
    s.(ledger := MarkFinished(s.ledger, f.id, now),
       flights := RemoveAt(s.flights, k),
       settled := s.settled + [Settlement(f.call.handle, outcome)])
  }

  lemma SettleHandles(s: State, k: nat, outcome: Outcome, now: int)
    requires k < |s.flights|
    ensures AllHandles(Settle(s, k, outcome, now)) == AllHandles(s)
  {
    HandlesRemove(s.flights, k, FlightHandle);
    assert RemoveAt(s.flights, k) == s.flights[..k] + s.flights[k+1..];
    HandlesPush(s.settled, Settlement(s.flights[k].call.handle, outcome), SettledHandle);
  }

  /**
   * What `onFinish` does with the queue once the ledger is up to date: nothing
   * when it is empty; otherwise ask `isAvailable` and send the head now (0), arm
   * a timer for the delay (positive), or wait for the next completion.
   */
  function Drain(s: State, now: int): (s': State)
    ensures s'.cfg == s.cfg && s'.settled == s.settled
    ensures s'.nextId == s.nextId + |s'.flights| - |s.flights|
    ensures AllHandles(s') == AllHandles(s)
    ensures |s.queue| == 0 ==> s' == s
    ensures |s.queue| > 0 ==>
      var kept := Prune(s.ledger, now, s.cfg.period, s.cfg.countBeforeReq);
      if |kept| < s.cfg.reqLimit then
        && s'.queue == s.queue[1..]
        && s'.ledger == kept + [NewEntry(s, now)]
        && s'.flights == s.flights + [Flight(s.nextId, s.queue[0])]
        && s'.timers == s.timers
      else
        && s'.queue == s.queue
        && s'.ledger == kept
        && s'.flights == s.flights
        && (if UnfinishedCount(kept) >= s.cfg.reqLimit then s'.timers == s.timers
            else s'.timers == s.timers + [IsAvailable(s.ledger, s.cfg, now).answer.n]
                 && IsAvailable(s.ledger, s.cfg, now).answer.n >= 1)
  {
    if |s.queue| == 0 then s
    else
      var av := IsAvailable(s.ledger, s.cfg, now);
      var s1 := s.(ledger := av.ledger);
      if av.answer == Code(0) then
        SendNext(s1, now)
      else if av.answer.Code? && av.answer.n > 0 then
        s1.(timers := s1.timers + [av.answer.n])
      else s1
  }

  /** With the ledger already pruned and a positive answer, `onFinish` only arms a timer. */
  lemma DrainArms(s: State, now: int, n: int)
    requires |s.queue| > 0 && n > 0
    requires IsAvailable(s.ledger, s.cfg, now) == Availability(Code(n), s.ledger)
    ensures Drain(s, now) == s.(timers := s.timers + [n])
  {
  }

  /**
   * `onFinish` for flight `k`, which settled with `outcome`: the entry becomes
   * finished at `now`, the promise settles, and only the queue head can leave
   * the queue.
   */
  function Complete(s: State, k: nat, outcome: Outcome, now: int): (s': State)
    requires k < |s.flights|
    ensures s'.cfg == s.cfg
    ensures s'.settled == s.settled + [Settlement(s.flights[k].call.handle, outcome)]
    ensures AllHandles(s') == AllHandles(s)
    ensures |s.queue| == 0 ==>
      && s'.ledger == MarkFinished(s.ledger, s.flights[k].id, now)
      && s'.queue == s.queue && s'.timers == s.timers
      && s'.flights == RemoveAt(s.flights, k)
    ensures s'.queue == s.queue || (|s.queue| > 0 && s'.queue == s.queue[1..])
    ensures s'.(settled := s.settled) ==
      Drain(s.(ledger := MarkFinished(s.ledger, s.flights[k].id, now), flights := RemoveAt(s.flights, k)), now)
  {
    var s1 := Settle(s, k, outcome, now);
    SettleHandles(s, k, outcome, now);
    DrainIgnoresSettled(s1.(settled := s.settled), s1.settled, now);
    Drain(s1, now)
  }

  /**
   * A timer armed by `onFinish` fires: `sendNext` shifts whatever is the queue
   * head by then and sends it, without asking `isAvailable` again.
   */
  function FireTimer(s: State, i: nat, now: int): (s': State)
    requires i < |s.timers|
    ensures s'.cfg == s.cfg && s'.settled == s.settled
    ensures s'.timers == RemoveAt(s.timers, i)
    ensures s'.nextId == s.nextId + |s'.flights| - |s.flights|
    ensures AllHandles(s') == AllHandles(s)
    ensures |s.queue| == 0 ==> s'.ledger == s.ledger && s'.queue == s.queue && s'.flights == s.flights
    ensures |s.queue| > 0 ==>
      && s'.queue == s.queue[1..]
      && s'.ledger == s.ledger + [NewEntry(s, now)]
      && s'.flights == s.flights + [Flight(s.nextId, s.queue[0])]
  {
    var s1 := s.(timers := RemoveAt(s.timers, i));
    SendNext(s1, now)
  }

  /** The outcome a call settles with affects only its own promise, never the accounting. */
  lemma FailureFreesLikeSuccess(s: State, k: nat, a: Outcome, b: Outcome, now: int)
    requires k < |s.flights|
    ensures Complete(s, k, a, now).(settled := s.settled) == Complete(s, k, b, now).(settled := s.settled)
  {
    var m := Settle(s, k, a, now);
    assert Settle(s, k, b, now) == m.(settled := Settle(s, k, b, now).settled);
    DrainIgnoresSettled(m, Settle(s, k, b, now).settled, now);
    DrainIgnoresSettled(m, s.settled, now);
  }

  /** What `onFinish` does with the queue does not depend on the promises already settled. */
  lemma DrainIgnoresSettled(s: State, settled: seq<Settlement>, now: int)
    ensures Drain(s.(settled := settled), now) == Drain(s, now).(settled := settled)
  {
    if |s.queue| > 0 {
      var av := IsAvailable(s.ledger, s.cfg, now);
      SendNextIgnoresSettled(s.(ledger := av.ledger), settled, now);
    }
  }

  lemma SendNextIgnoresSettled(s: State, settled: seq<Settlement>, now: int)
    ensures SendNext(s.(settled := settled), now) == SendNext(s, now).(settled := settled)
  {
  }

  /** The ledger is in issue order and every id is below the next one to issue. */
  predicate Wf(s: State)
  {
    && IssueOrdered(s.ledger)
    && IdsBelow(s.ledger, s.nextId)
    && forall i :: 0 <= i < |s.flights| ==> s.flights[i].id < s.nextId
  }

  lemma InitWf(cfg: Config)
    ensures Wf(Init(cfg))
  {
  }

  lemma SendWf(s: State, c: Call, now: int)
    requires Wf(s)
    ensures Wf(Send(s, c, now))
  {
  }

  lemma {:induction false} PruneWf(s: State, now: int)
    requires Wf(s)
    ensures Wf(s.(ledger := Prune(s.ledger, now, s.cfg.period, s.cfg.countBeforeReq)))
  {
    PruneKeepsIssueOrder(s.ledger, now, s.cfg.period, s.cfg.countBeforeReq);
    var kept := Prune(s.ledger, now, s.cfg.period, s.cfg.countBeforeReq);
    forall i | 0 <= i < |kept|
      ensures kept[i].id < s.nextId
    {
      assert kept[i] in s.ledger;
    }
  }

  lemma {:induction false} DrainWf(s: State, now: int)
    requires Wf(s)
    ensures Wf(Drain(s, now))
  {
    if |s.queue| > 0 {
      PruneWf(s, now);
      var s1 := s.(ledger := Prune(s.ledger, now, s.cfg.period, s.cfg.countBeforeReq));
      if |s1.ledger| < s.cfg.reqLimit {
        SendWf(s1.(queue := s.queue[1..]), s.queue[0], now);
      }
    }
  }

  /** Every step keeps the ledger in issue order, so "first finished entry" means the oldest issued. */
  lemma StepsPreserveWf(s: State, c: Call, k: nat, outcome: Outcome, i: nat, now: int)
    requires Wf(s)
    ensures Wf(Admit(s, c, now))
    ensures k < |s.flights| ==> Wf(Complete(s, k, outcome, now))
    ensures i < |s.timers| ==> Wf(FireTimer(s, i, now))
    ensures i < |s.timers| ==> Wf(FireTimerRechecked(s, i, now))
  {
    AdmitWf(s, c, now);
    if k < |s.flights| {
      CompleteWf(s, k, outcome, now);
    }
    if i < |s.timers| {
      FireWf(s, i, now);
    }
  }

  lemma {:induction false} AdmitWf(s: State, c: Call, now: int)
    requires Wf(s)
    ensures Wf(Admit(s, c, now))
  {
    PruneWf(s, now);
    var s1 := s.(ledger := Prune(s.ledger, now, s.cfg.period, s.cfg.countBeforeReq));
    if |s1.ledger| < s.cfg.reqLimit {
      SendWf(s1, c, now);
    }
  }

  lemma {:induction false} CompleteWf(s: State, k: nat, outcome: Outcome, now: int)
    requires Wf(s) && k < |s.flights|
    ensures Wf(Complete(s, k, outcome, now))
  {
    var m := Settle(s, k, outcome, now);
    assert IssueOrdered(m.ledger);
    assert Wf(m);
    DrainWf(m, now);
  }

  lemma {:induction false} FireWf(s: State, i: nat, now: int)
    requires Wf(s) && i < |s.timers|
    ensures Wf(FireTimer(s, i, now))
    ensures Wf(FireTimerRechecked(s, i, now))
  {
    var t := s.(timers := RemoveAt(s.timers, i));
    assert Wf(t);
    if |s.queue| > 0 {
      SendWf(t.(queue := s.queue[1..]), s.queue[0], now);
    }
    DrainWf(t, now);
  }

  /**
   * Corrected timer step: when the timer fires, ask `isAvailable` again and
   * treat the answer as `onFinish` does, instead of sending unconditionally.
   */
  function FireTimerRechecked(s: State, i: nat, now: int): (s': State)
    requires i < |s.timers|
    ensures s'.cfg == s.cfg && s'.settled == s.settled
    ensures AllHandles(s') == AllHandles(s)
    ensures s'.queue == s.queue || (|s.queue| > 0 && s'.queue == s.queue[1..])
    ensures |s'.queue| < |s.queue| ==> |Prune(s.ledger, now, s.cfg.period, s.cfg.countBeforeReq)| < s.cfg.reqLimit
  {
    Drain(s.(timers := RemoveAt(s.timers, i)), now)
  }

  /** The ledger never holds more entries than the limit allows. */
  predicate WithinLimit(s: State)
  {
    |s.ledger| <= s.cfg.reqLimit
  }

  lemma {:induction false} DrainWithinLimit(s: State, now: int)
    requires WithinLimit(s)
    ensures WithinLimit(Drain(s, now))
  {
  }

  /**
   * With the corrected timer step, admission, completion and timer firing all
   * keep the ledger within `reqLimit`, so at any instant at most `reqLimit`
   * entries count.
   */
  lemma {:induction false} RecheckedStepsStayWithinLimit(s: State, c: Call, k: nat, outcome: Outcome, i: nat, now: int, t: int)
    requires WithinLimit(s)
    ensures WithinLimit(Admit(s, c, now))
    ensures k < |s.flights| ==> WithinLimit(Complete(s, k, outcome, now))
    ensures i < |s.timers| ==> WithinLimit(FireTimerRechecked(s, i, now))
    ensures |Prune(s.ledger, t, s.cfg.period, s.cfg.countBeforeReq)| <= s.cfg.reqLimit
  {
    if k < |s.flights| {
      DrainWithinLimit(Settle(s, k, outcome, now), now);
    }
    if i < |s.timers| {
      DrainWithinLimit(s.(timers := RemoveAt(s.timers, i)), now);
    }
  }

  /** The events the limiter reacts to. */
  datatype Event =
    | Admitted(call: Call, now: int)
    | Completed(flight: nat, outcome: Outcome, now: int)
    | TimerFired(timer: nat, now: int)

  predicate Enabled(s: State, e: Event)
  {
    match e
    case Admitted(_, _) => true
    case Completed(k, _, _) => k < |s.flights|
    case TimerFired(i, _) => i < |s.timers|
  }

  /** One reaction; `rechecked` selects the corrected timer step. */
  function Apply(s: State, e: Event, rechecked: bool): State
    requires Enabled(s, e)
  {
    match e
    case Admitted(c, now) => Admit(s, c, now)
    case Completed(k, o, now) => Complete(s, k, o, now)
    case TimerFired(i, now) => if rechecked then FireTimerRechecked(s, i, now) else FireTimer(s, i, now)
  }

  /** Runs the events in order; `None` when one of them is not possible in the state it meets. */
  function Run(s: State, events: seq<Event>, rechecked: bool): Option<State>
    decreases |events|
  {
    if |events| == 0 then Some(s)
    else if !Enabled(s, events[0]) then None
    else Run(Apply(s, events[0], rechecked), events[1..], rechecked)
  }

  /** With the corrected timer step, every run from a limit-respecting state stays within the limit. */
  lemma {:induction false} RecheckedRunStaysWithinLimit(s: State, events: seq<Event>)
    requires WithinLimit(s)
    ensures Run(s, events, true).Some? ==> WithinLimit(Run(s, events, true).value)
    decreases |events|
  {
    if |events| > 0 && Enabled(s, events[0]) {
      var e := events[0];
      var dummy := Call(0, Get, []);
      match e {
        case Admitted(c, now) =>
          RecheckedStepsStayWithinLimit(s, c, 0, Resolved(0), 0, now, now);
        case Completed(k, o, now) =>
          RecheckedStepsStayWithinLimit(s, dummy, k, o, 0, now, now);
        case TimerFired(i, now) =>
          RecheckedStepsStayWithinLimit(s, dummy, 0, Resolved(0), i, now, now);
      }
      RecheckedRunStaysWithinLimit(Apply(s, e, true), events[1..]);
    }
  }

  /**
   * Configuration, calls and entries of the over-admission trace below. The
   * trace starts at an arbitrary instant `t`; every other time is an offset
   * from it.
   */
  function TraceConfig(): Config { Config(2, 1000, false) }

  function TraceCall(h: nat): Call { Call(h, Get, []) }

  /** Entry `id` while in flight: the first two are issued at `t`, the others at `t + 1010`. */
  function Issued(id: nat, t: int): Entry { Entry(id, if id < 2 then t else t + 1010, false, 1) }

  /** Entry `id` once finished, `10 * (id + 1)` ms after `t`. */
  function Done(id: nat, t: int): Entry { Entry(id, t + 10 * (id + 1), true, 1) }

  function TraceSettled(n: nat): seq<Settlement>
  {
    if n == 0 then [] else TraceSettled(n - 1) + [Settlement(n, Resolved(0))]
  }

  /** The states of the over-admission trace, one after each event. */
  function TraceState(n: nat, t: int): State
    requires n <= 8
  {
    var cfg := TraceConfig();
    var f0, f1 := Flight(0, TraceCall(1)), Flight(1, TraceCall(2));
    var f2, f3 := Flight(2, TraceCall(3)), Flight(3, TraceCall(4));
    if n == 0 then Init(cfg)
    else if n == 1 then State(cfg, [Issued(0, t)], [], [], [f0], 1, [])
    else if n == 2 then State(cfg, [Issued(0, t), Issued(1, t)], [], [], [f0, f1], 2, [])
    else if n == 3 then State(cfg, [Issued(0, t), Issued(1, t)], [TraceCall(3)], [], [f0, f1], 2, [])
    else if n == 4 then State(cfg, [Issued(0, t), Issued(1, t)], [TraceCall(3), TraceCall(4)], [], [f0, f1], 2, [])
    else if n == 5 then State(cfg, [Done(0, t), Issued(1, t)], [TraceCall(3), TraceCall(4)], [1000], [f1], 2, TraceSettled(1))
    else if n == 6 then State(cfg, [Done(0, t), Done(1, t)], [TraceCall(3), TraceCall(4)], [1000, 990], [], 2, TraceSettled(2))
    else if n == 7 then State(cfg, [Done(0, t), Done(1, t), Issued(2, t)], [TraceCall(4)], [990], [f2], 3, TraceSettled(2))
    else State(cfg, [Done(0, t), Done(1, t), Issued(2, t), Issued(3, t)], [], [], [f2, f3], 4, TraceSettled(2))
  }

  /** The events of the over-admission trace. */
  function TraceEvents(t: int): seq<Event>
  {
    [ Admitted(TraceCall(1), t), Admitted(TraceCall(2), t),
      Admitted(TraceCall(3), t), Admitted(TraceCall(4), t),
      Completed(0, Resolved(0), t + 10), Completed(0, Resolved(0), t + 20),
      TimerFired(0, t + 1010), TimerFired(0, t + 1010) ]
  }

  /** Calls admitted at `t`: nothing has aged out, so the ledger is kept whole. */
  lemma TraceKeepsIssued(l: seq<Entry>, t: int)
    requires forall i :: 0 <= i < |l| ==> !l[i].finished
    ensures Prune(l, t, 1000, false) == l
  {
    PruneKeepsAllRetained(l, t, 1000, false);
  }

  /** Admission at `t` of call `n + 1`: sent while fewer than two are in flight, queued after. */
  lemma TraceAdmits(n: nat, t: int)
    requires n < 4
    ensures Enabled(TraceState(n, t), TraceEvents(t)[n])
    ensures Apply(TraceState(n, t), TraceEvents(t)[n], false) == TraceState(n + 1, t)
  {
    if n < 2 {
      TraceSends(n, t);
    } else {
      TraceQueues(n, t);
    }
  }

  lemma TraceSends(n: nat, t: int)
    requires n < 2
    ensures Enabled(TraceState(n, t), TraceEvents(t)[n])
    ensures Apply(TraceState(n, t), TraceEvents(t)[n], false) == TraceState(n + 1, t)
  {
    var s := TraceState(n, t);
    var c := TraceCall(n + 1);
    assert TraceEvents(t)[n] == Admitted(c, t);
    TraceKeepsIssued(s.ledger, t);
    assert |s.ledger| == n;
    var s' := Admit(s, c, t);
    assert s'.ledger == s.ledger + [NewEntry(s, t)];
    assert s'.flights == s.flights + [Flight(s.nextId, c)];
    assert s' == Send(s, c, t);
  }

  lemma TraceQueues(n: nat, t: int)
    requires n == 2 || n == 3
    ensures Enabled(TraceState(n, t), TraceEvents(t)[n])
    ensures Apply(TraceState(n, t), TraceEvents(t)[n], false) == TraceState(n + 1, t)
  {
    var s := TraceState(n, t);
    var c := TraceCall(n + 1);
    assert TraceEvents(t)[n] == Admitted(c, t);
    TraceKeepsIssued(s.ledger, t);
    var s' := Admit(s, c, t);
    assert s'.queue == s.queue + [c];
    assert s' == s.(queue := s.queue + [c]);
  }

  lemma TraceFirstCompletion(t: int)
    ensures Enabled(TraceState(4, t), TraceEvents(t)[4])
    ensures Apply(TraceState(4, t), TraceEvents(t)[4], false) == TraceState(5, t)
  {
    var s := TraceState(4, t);
    assert TraceEvents(t)[4] == Completed(0, Resolved(0), t + 10);
    var m := Settle(s, 0, Resolved(0), t + 10);
    assert m.ledger == [Done(0, t), Issued(1, t)];
    assert m == TraceState(5, t).(timers := []);
    TraceFirstAnswer(m.ledger, t);
    DrainArms(m, t + 10, 1000);
  }

  lemma TraceFirstAnswer(l: seq<Entry>, t: int)
    requires l == [Done(0, t), Issued(1, t)]
    ensures IsAvailable(l, TraceConfig(), t + 10) == Availability(Code(1000), l)
  {
    PruneKeepsAllRetained(l, t + 10, 1000, false);
    assert FirstFinished(l) == Some(0);
  }

  lemma TraceSecondCompletion(t: int)
    ensures Enabled(TraceState(5, t), TraceEvents(t)[5])
    ensures Apply(TraceState(5, t), TraceEvents(t)[5], false) == TraceState(6, t)
  {
    var s := TraceState(5, t);
    assert TraceEvents(t)[5] == Completed(0, Resolved(0), t + 20);
    var m := Settle(s, 0, Resolved(0), t + 20);
    assert m.ledger == [Done(0, t), Done(1, t)];
    assert m == TraceState(6, t).(timers := [1000]);
    TraceSecondAnswer(m.ledger, t);
    DrainArms(m, t + 20, 990);
    assert [1000] + [990] == [1000, 990];
  }

  lemma TraceSecondAnswer(l: seq<Entry>, t: int)
    requires l == [Done(0, t), Done(1, t)]
    ensures IsAvailable(l, TraceConfig(), t + 20) == Availability(Code(990), l)
  {
    PruneKeepsAllRetained(l, t + 20, 1000, false);
    assert FirstFinished(l) == Some(0);
  }

  /** Each timer fires at `t + 1010` and sends the queue head without asking again. */
  lemma TraceFirstTimer(t: int)
    ensures Enabled(TraceState(6, t), TraceEvents(t)[6])
    ensures Apply(TraceState(6, t), TraceEvents(t)[6], false) == TraceState(7, t)
  {
    var s := TraceState(6, t);
    assert TraceEvents(t)[6] == TimerFired(0, t + 1010);
    assert RemoveAt(s.timers, 0) == [990];
    assert s.queue[1..] == [TraceCall(4)];
    var s' := FireTimer(s, 0, t + 1010);
    assert s'.ledger == [Done(0, t), Done(1, t), Issued(2, t)];
    assert s'.flights == [Flight(2, TraceCall(3))];
  }

  lemma TraceSecondTimer(t: int)
    ensures Enabled(TraceState(7, t), TraceEvents(t)[7])
    ensures Apply(TraceState(7, t), TraceEvents(t)[7], false) == TraceState(8, t)
  {
    var s := TraceState(7, t);
    assert TraceEvents(t)[7] == TimerFired(0, t + 1010);
    assert RemoveAt(s.timers, 0) == [];
    assert s.queue[1..] == [];
    var s' := FireTimer(s, 0, t + 1010);
    assert s'.ledger == [Done(0, t), Done(1, t), Issued(2, t), Issued(3, t)];
    assert s'.flights == [Flight(2, TraceCall(3)), Flight(3, TraceCall(4))];
  }

  /**
   * Two completions in a row each arm a timer from the same freed slot, and
   * each timer sends a queued call without asking again. With `reqLimit` 2 and
   * a 1000 ms window, four calls admitted at `t` and the first two completing
   * 10 ms and 20 ms later, both timers fire at `t + 1010` and leave three
   * entries counting inside the window (`RecheckedRunStaysWithinLimit` shows
   * that the corrected timer step never exceeds the limit).
   */
  lemma DoubleTimerOverAdmits(t: int)
    ensures Run(TraceState(0, t), TraceEvents(t), false) == Some(TraceState(8, t))
    ensures |Prune(TraceState(8, t).ledger, t + 1010, 1000, false)| == 3 > TraceConfig().reqLimit
  {
    TraceRunsFrom(0, t);
    assert TraceEvents(t)[0..] == TraceEvents(t);
    TraceOverLimit(TraceState(8, t).ledger, t);
  }

  lemma TraceOverLimit(l: seq<Entry>, t: int)
    requires l == [Done(0, t), Done(1, t), Issued(2, t), Issued(3, t)]
    ensures Prune(l, t + 1010, 1000, false) == l[1..]
  {
    PruneKeepsAllRetained(l[1..], t + 1010, 1000, false);
    assert !Retained(l[0], t + 1010, 1000, false);
  }

  lemma RunStep(s: State, events: seq<Event>, rechecked: bool)
    requires |events| > 0 && Enabled(s, events[0])
    ensures Run(s, events, rechecked) == Run(Apply(s, events[0], rechecked), events[1..], rechecked)
  {
  }

  /** Running the suffix of the trace events from event `n` on reaches the last state. */
  lemma TraceRunsFrom(n: nat, t: int)
    requires n <= 8
    ensures Run(TraceState(n, t), TraceEvents(t)[n..], false) == Some(TraceState(8, t))
    decreases 8 - n
  {
    var ev := TraceEvents(t);
    if n < 8 {
      TraceRunsFrom(n + 1, t);
      assert ev[n..][1..] == ev[n + 1..];
      TraceStep(n, t);
      RunStep(TraceState(n, t), ev[n..], false);
    } else {
      assert ev[n..] == [];
    }
  }

  lemma TraceStep(n: nat, t: int)
    requires n < 8
    ensures Enabled(TraceState(n, t), TraceEvents(t)[n])
    ensures Apply(TraceState(n, t), TraceEvents(t)[n], false) == TraceState(n + 1, t)
  {
    if n < 4 {
      TraceAdmits(n, t);
    } else if n < 6 {
      TraceCompletes(n, t);
    } else {
      TraceTimerFires(n, t);
    }
  }

  lemma TraceCompletes(n: nat, t: int)
    requires n == 4 || n == 5
    ensures Enabled(TraceState(n, t), TraceEvents(t)[n])
    ensures Apply(TraceState(n, t), TraceEvents(t)[n], false) == TraceState(n + 1, t)
  {
    if n == 4 {
      TraceFirstCompletion(t);
    } else {
      TraceSecondCompletion(t);
    }
  }

  lemma TraceTimerFires(n: nat, t: int)
    requires n == 6 || n == 7
    ensures Enabled(TraceState(n, t), TraceEvents(t)[n])
    ensures Apply(TraceState(n, t), TraceEvents(t)[n], false) == TraceState(n + 1, t)
  {
    if n == 6 {
      TraceFirstTimer(t);
    } else {
      TraceSecondTimer(t);
    }
  }
}

=== FILE: count_limiter.dfy ===
/**
 * The unit-count limiter of src/rateLimitExt.js and src/index.js: its
 * configuration, how the constructors resolve options, and `isAvailable`.
 * Every dispatched call counts one against `reqLimit` within `period`.
 */
module CountLimiter {
  import opened Maybe
  import opened Ledger

  const DefaultPeriod: int := 1000
  const DefaultReqLimit: int := 18

  /** `_reqLimit`, `_period` and `_countBeforeReq`. */
  datatype Config = Config(reqLimit: int, period: int, countBeforeReq: bool)

  /** The destructured constructor options; `None` is an option left `undefined`. */
  datatype Options = Options(reqPerSecond: Option<int>, reqLimit: Option<int>, period: Option<int>, countBeforeReq: bool)

  /**
   * rateLimitExt.js's constructor: a truthy `reqPerSecond` fixes a one-second
   * window; otherwise each truthy option replaces its default.
   */
  function ResolveExt(o: Options): (c: Config)
    ensures c.countBeforeReq == o.countBeforeReq
    ensures Truthy(o.reqPerSecond) ==> c.reqLimit == o.reqPerSecond.value && c.period == DefaultPeriod
    ensures !Truthy(o.reqPerSecond) && Truthy(o.period) ==> c.period == o.period.value
    ensures !Truthy(o.reqPerSecond) && Truthy(o.reqLimit) ==> c.reqLimit == o.reqLimit.value
    ensures !Truthy(o.period) || Truthy(o.reqPerSecond) ==> c.period == DefaultPeriod
    ensures !Truthy(o.reqLimit) && !Truthy(o.reqPerSecond) ==> c.reqLimit == DefaultReqLimit
  {
    if !Truthy(o.reqPerSecond) then
      Config(if Truthy(o.reqLimit) then o.reqLimit.value else DefaultReqLimit,
             if Truthy(o.period) then o.period.value else DefaultPeriod,
             o.countBeforeReq)
    else
      Config(o.reqPerSecond.value, DefaultPeriod, o.countBeforeReq)
  }

  const CheckOptions: string := "check  options!!"

  /**
   * index.js's constructor: it throws unless `reqPerSecond` is truthy or both
   * `reqLimit` and `period` are; whenever it does not throw it configures the
   * limiter exactly as rateLimitExt.js would.
   */
  function ConstructIndex(o: Options): (r: Result<Config>)
    ensures r.Ok? <==> Truthy(o.reqPerSecond) || (Truthy(o.reqLimit) && Truthy(o.period))
    ensures r.Err? ==> r.message == CheckOptions
    ensures r.Ok? ==> r.value == ResolveExt(o)
  {
    if !Truthy(o.reqPerSecond) then
      if Truthy(o.reqLimit) && Truthy(o.period) then Ok(Config(o.reqLimit.value, o.period.value, o.countBeforeReq))
      else Err(CheckOptions)
    else
      Ok(Config(o.reqPerSecond.value, DefaultPeriod, o.countBeforeReq))
  }

  /** `setRPS`: a per-second limit, which resets the window to one second. */
  function SetRPS(c: Config, requestPerSecond: int): (c': Config)
    ensures GetReqLimit(c') == requestPerSecond && GetPeriod(c') == DefaultPeriod
    ensures c'.countBeforeReq == c.countBeforeReq
    ensures requestPerSecond != 0 ==>
      c' == ResolveExt(Options(Some(requestPerSecond), None, None, c.countBeforeReq))
  {
    c.(reqLimit := requestPerSecond, period := DefaultPeriod)
  }

  function SetPeriod(c: Config, period: int): (c': Config)
    ensures GetPeriod(c') == period
    ensures GetReqLimit(c') == GetReqLimit(c) && c'.countBeforeReq == c.countBeforeReq
  {
    c.(period := period)
  }

  function GetPeriod(c: Config): int { c.period }

  function SetReqLimit(c: Config, reqLimit: int): (c': Config)
    ensures GetReqLimit(c') == reqLimit
    ensures GetPeriod(c') == GetPeriod(c) && c'.countBeforeReq == c.countBeforeReq
  {
    c.(reqLimit := reqLimit)
  }

  function GetReqLimit(c: Config): int { c.reqLimit }

  /** Setting the period and the limit in either order gives the same configuration. */
  lemma SettersCommute(c: Config, period: int, reqLimit: int)
    ensures SetReqLimit(SetPeriod(c, period), reqLimit) == SetPeriod(SetReqLimit(c, reqLimit), period)
    ensures SetPeriod(c, GetPeriod(c)) == c && SetReqLimit(c, GetReqLimit(c)) == c
  {
  }

  /** Index of the first finished entry in ledger order, if any. */
  function FirstFinished(l: seq<Entry>): (r: Option<nat>)
    ensures r.Some? ==> r.value < |l| && l[r.value].finished
    ensures r.Some? ==> forall j :: 0 <= j < r.value ==> !l[j].finished
    ensures r.None? ==> forall j :: 0 <= j < |l| ==> !l[j].finished
  {
    if |l| == 0 then None
    else if l[0].finished then Some(0)
    else
      match FirstFinished(l[1..])
      case None => None
      case Some(i) => Some(i + 1)
  }

  /** The result of `isAvailable` and the ledger `updateLasts` left behind. */
  datatype Availability = Availability(answer: Answer, ledger: seq<Entry>)

  /**
   * `isAvailable`: prune, then 0 when fewer than `reqLimit` entries remain, -1
   * when the unfinished entries alone reach the limit, and otherwise the time
   * left until the first finished entry (in ledger order) ages out, which is
   * always at least one millisecond and never falls through to `undefined`.
   */
  function IsAvailable(l: seq<Entry>, c: Config, now: int): (r: Availability)
    ensures r.ledger == Prune(l, now, c.period, c.countBeforeReq)
    ensures r.answer.Code?
    ensures r.answer == Code(0) <==> |r.ledger| < c.reqLimit
    ensures r.answer == Code(-1) <==> |r.ledger| >= c.reqLimit && UnfinishedCount(r.ledger) >= c.reqLimit
    ensures |r.ledger| >= c.reqLimit && UnfinishedCount(r.ledger) < c.reqLimit ==>
      r.answer.n >= 1 &&
      exists i :: 0 <= i < |r.ledger| && r.ledger[i].finished
        && (forall j :: 0 <= j < i ==> !r.ledger[j].finished)
        && r.answer.n == c.period - (now - r.ledger[i].millis)
    ensures (&& |r.ledger| >= c.reqLimit && UnfinishedCount(r.ledger) < c.reqLimit
             && forall i :: 0 <= i < |l| ==> l[i].millis <= now) ==> r.answer.n <= c.period
  {
    var kept := Prune(l, now, c.period, c.countBeforeReq);
    if |kept| < c.reqLimit then Availability(Code(0), kept)
    else if UnfinishedCount(kept) >= c.reqLimit then Availability(Code(-1), kept)
    else
      match FirstFinished(kept)
      case None => assert false; Availability(Missing, kept)
      case Some(i) =>
        assert kept[i] in l;
        Availability(Code(c.period - (now - kept[i].millis)), kept)
  }
}

=== FILE: ledger.dfy ===
/**
 * The rolling ledger (`lasts`) shared by all three limiter copies: one entry per
 * dispatched call, pruned by age before every availability check.
 */
module Ledger {

  /**
   * One ledger record. `id` stands for the JavaScript object identity that
   * `onFinish` uses to find its entry. `millis` is the issue time while the call
   * is in flight and is overwritten with the finish time when it completes.
   * The unit-count copies record no weight; their entries carry weight 1.
   */
  datatype Entry = Entry(id: nat, millis: int, finished: bool, weight: int)

  /**
   * Whether `updateLasts` keeps `e` at time `now`: an unfinished entry always
   * counts unless entries are counted from the request, otherwise an entry
   * counts while it is younger than `period`.
   */
  predicate Retained(e: Entry, now: int, period: int, countEarly: bool)
  {
    (!e.finished && !countEarly) || now - e.millis < period
  }

  /** `a` occurs in `b` in order (greedy matching decides this exactly). */
  predicate IsSubsequence(a: seq<Entry>, b: seq<Entry>)
    decreases |b|
  {
    |a| == 0 || (|b| > 0 && if a[0] == b[0] then IsSubsequence(a[1..], b[1..]) else IsSubsequence(a, b[1..]))
  }

  /** `updateLasts`: the ledger filtered by `Retained`. */
  function Prune(l: seq<Entry>, now: int, period: int, countEarly: bool): (r: seq<Entry>)
    ensures forall e :: e in r <==> e in l && Retained(e, now, period, countEarly)
    ensures IsSubsequence(r, l)
    ensures |r| <= |l|
  {
    if |l| == 0 then []
    else
      assert l == [l[0]] + l[1..];
      var rest := Prune(l[1..], now, period, countEarly);
      if Retained(l[0], now, period, countEarly) then
        assert ([l[0]] + rest)[1..] == rest;
        [l[0]] + rest
      else
        assert rest != [] ==> rest[0] in rest && rest[0] != l[0];
        rest
  }

  /** Pruning keeps every copy of a retained entry and no copy of any other. */
  lemma {:induction false} PruneCounts(l: seq<Entry>, now: int, period: int, countEarly: bool, e: Entry)
    ensures multiset(Prune(l, now, period, countEarly))[e] == if Retained(e, now, period, countEarly) then multiset(l)[e] else 0
  {
    if |l| > 0 {
      assert l == [l[0]] + l[1..];
      PruneCounts(l[1..], now, period, countEarly, e);
    }
  }

  /** Pruning twice at the same instant prunes nothing more. */
  lemma {:induction false} PruneIdempotent(l: seq<Entry>, now: int, period: int, countEarly: bool)
    ensures Prune(Prune(l, now, period, countEarly), now, period, countEarly) == Prune(l, now, period, countEarly)
  {
    if |l| > 0 {
      var rest := Prune(l[1..], now, period, countEarly);
      PruneIdempotent(l[1..], now, period, countEarly);
      if Retained(l[0], now, period, countEarly) {
        assert ([l[0]] + rest)[1..] == rest;
      }
    }
  }

  /** A ledger every entry of which `updateLasts` keeps. */
  predicate AllRetained(l: seq<Entry>, now: int, period: int, countEarly: bool)
  {
    forall i :: 0 <= i < |l| ==> Retained(l[i], now, period, countEarly)
  }

  /** `updateLasts` changes nothing when it would keep every entry. */
  lemma {:induction false} PruneKeepsAllRetained(l: seq<Entry>, now: int, period: int, countEarly: bool)
    requires AllRetained(l, now, period, countEarly)
    ensures Prune(l, now, period, countEarly) == l
  {
    if |l| > 0 {
      assert AllRetained(l[1..], now, period, countEarly) by {
        forall i | 0 <= i < |l[1..]|
          ensures Retained(l[1..][i], now, period, countEarly)
        {
          assert l[1..][i] == l[i + 1];
        }
      }
      PruneKeepsAllRetained(l[1..], now, period, countEarly);
      assert [l[0]] + l[1..] == l;
    }
  }

  /** Every entry carries a non-negative weight. */
  predicate NonNegative(l: seq<Entry>)
  {
    forall i :: 0 <= i < |l| ==> l[i].weight >= 0
  }

  /** Ids strictly increase along the ledger: ledger order is issue order. */
  predicate IssueOrdered(l: seq<Entry>)
  {
    forall i, j :: 0 <= i < j < |l| ==> l[i].id < l[j].id
  }

  /** Every id in the ledger is below `bound`. */
  predicate IdsBelow(l: seq<Entry>, bound: nat)
  {
    forall i :: 0 <= i < |l| ==> l[i].id < bound
  }

  lemma {:induction false} PruneKeepsIssueOrder(l: seq<Entry>, now: int, period: int, countEarly: bool)
    requires IssueOrdered(l)
    ensures IssueOrdered(Prune(l, now, period, countEarly))
  {
    if |l| > 0 {
      var tail := l[1..];
      assert IssueOrdered(tail) by {
        assert forall i :: 0 <= i < |tail| ==> tail[i] == l[i + 1];
      }
      var rest := Prune(tail, now, period, countEarly);
      PruneKeepsIssueOrder(tail, now, period, countEarly);
      if Retained(l[0], now, period, countEarly) {
        assert forall e :: e in rest ==> e in tail;
        assert forall e :: e in tail ==> l[0].id < e.id by {
          forall e | e in tail
            ensures l[0].id < e.id
          {
            var j :| 0 <= j < |tail| && tail[j] == e;
            assert l[j + 1] == e;
          }
        }
        HeadBeforeOrdered(l[0], rest);
      }
    }
  }

  lemma HeadBeforeOrdered(e: Entry, rest: seq<Entry>)
    requires IssueOrdered(rest)
    requires forall x :: x in rest ==> e.id < x.id
    ensures IssueOrdered([e] + rest)
  {
    var r := [e] + rest;
    forall i, j | 0 <= i < j < |r|
      ensures r[i].id < r[j].id
    {
      if i == 0 {
        assert r[j] == rest[j - 1];
        assert r[j] in rest;
      } else {
        assert r[i] == rest[i - 1] && r[j] == rest[j - 1];
      }
    }
  }

  /** `onFinish`: the entry with `id` becomes finished and its `millis` becomes `now`. */
  function MarkFinished(l: seq<Entry>, id: nat, now: int): (r: seq<Entry>)
    ensures |r| == |l|
    ensures forall i :: 0 <= i < |l| ==> r[i].id == l[i].id && r[i].weight == l[i].weight
    ensures forall i :: 0 <= i < |l| && l[i].id == id ==> r[i].finished && r[i].millis == now
    ensures forall i :: 0 <= i < |l| && l[i].id != id ==> r[i] == l[i]
  {
    if |l| == 0 then []
    else
      var head := if l[0].id == id then l[0].(finished := true, millis := now) else l[0];
      [head] + MarkFinished(l[1..], id, now)
  }

  /** Number of unfinished entries (`lasts.filter(el => !el.finished).length`). */
  function UnfinishedCount(l: seq<Entry>): (n: nat)
    ensures n <= |l|
    ensures n == |l| <==> forall i :: 0 <= i < |l| ==> !l[i].finished
  {
    if |l| == 0 then 0
    else
      var rest := UnfinishedCount(l[1..]);
      assert forall i :: 1 <= i < |l| ==> l[i] == l[1..][i - 1];
      (if l[0].finished then 0 else 1) + rest
  }

  /** Sum of the weights of the entries that satisfy `keep`. */
  function WeightWhere(l: seq<Entry>, keep: Entry -> bool): int
  {
    if |l| == 0 then 0 else (if keep(l[0]) then l[0].weight else 0) + WeightWhere(l[1..], keep)
  }

  predicate Any(e: Entry) { true }

  predicate Unfinished(e: Entry) { !e.finished }

  predicate Finished(e: Entry) { e.finished }

  /** The ledger's total weight (`total` in `calcWeights`). */
  function WeightOf(l: seq<Entry>): int { WeightWhere(l, Any) }

  /** The weight of unfinished entries (`unFinisheds` in `calcWeights`). */
  function UnfinishedWeight(l: seq<Entry>): int { WeightWhere(l, Unfinished) }

  function FinishedWeight(l: seq<Entry>): int { WeightWhere(l, Finished) }

  lemma {:induction false} WeightWhereAppend(a: seq<Entry>, b: seq<Entry>, keep: Entry -> bool)
    ensures WeightWhere(a + b, keep) == WeightWhere(a, keep) + WeightWhere(b, keep)
  {
    if |a| == 0 {
      assert a + b == b;
    } else {
      assert (a + b)[1..] == a[1..] + b;
      WeightWhereAppend(a[1..], b, keep);
    }
  }

  /** With non-negative weights a selected sum lies between zero and the total. */
  lemma {:induction false} WeightWhereBounds(l: seq<Entry>, keep: Entry -> bool)
    requires NonNegative(l)
    ensures 0 <= WeightWhere(l, keep) <= WeightOf(l)
  {
    if |l| > 0 {
      assert NonNegative(l[1..]) by {
        assert forall i :: 0 <= i < |l| - 1 ==> l[1..][i] == l[i + 1];
      }
      WeightWhereBounds(l[1..], keep);
    }
  }

  /** Total weight splits into finished and unfinished weight. */
  lemma {:induction false} WeightSplits(l: seq<Entry>)
    ensures WeightOf(l) == UnfinishedWeight(l) + FinishedWeight(l)
  {
    if |l| > 0 {
      WeightSplits(l[1..]);
    }
  }

  /** With non-negative weights, selecting more entries never selects less weight. */
  lemma {:induction false} WeightWhereMono(l: seq<Entry>, p: Entry -> bool, q: Entry -> bool)
    requires NonNegative(l)
    requires forall i :: 0 <= i < |l| ==> p(l[i]) ==> q(l[i])
    ensures WeightWhere(l, p) <= WeightWhere(l, q)
  {
    if |l| > 0 {
      assert NonNegative(l[1..]) by {
        assert forall i :: 0 <= i < |l| - 1 ==> l[1..][i] == l[i + 1];
      }
      assert forall i :: 0 <= i < |l| - 1 ==> l[1..][i] == l[i + 1];
      WeightWhereMono(l[1..], p, q);
    }
  }

  /** Two selections that split the ledger between them add up to its total. */
  lemma {:induction false} WeightWhereComplement(l: seq<Entry>, p: Entry -> bool, q: Entry -> bool)
    requires forall i :: 0 <= i < |l| ==> p(l[i]) != q(l[i])
    ensures WeightWhere(l, p) + WeightWhere(l, q) == WeightOf(l)
  {
    if |l| > 0 {
      assert forall i :: 0 <= i < |l| - 1 ==> l[1..][i] == l[i + 1];
      WeightWhereComplement(l[1..], p, q);
    }
  }

  /** Selections that agree on every entry select the same weight. */
  lemma {:induction false} WeightWhereSame(l: seq<Entry>, p: Entry -> bool, q: Entry -> bool)
    requires forall i :: 0 <= i < |l| ==> p(l[i]) == q(l[i])
    ensures WeightWhere(l, p) == WeightWhere(l, q)
  {
    if |l| > 0 {
      assert forall i :: 0 <= i < |l| - 1 ==> l[1..][i] == l[i + 1];
      WeightWhereSame(l[1..], p, q);
    }
  }

  /** Whether `updateLasts` keeps an entry, as a selection. */
  function RetainedAt(now: int, period: int, countEarly: bool): Entry -> bool
  {
    (e: Entry) => Retained(e, now, period, countEarly)
  }

  /** The weight left after pruning is the weight of the retained entries. */
  lemma {:induction false} PruneWeight(l: seq<Entry>, now: int, period: int, countEarly: bool)
    ensures WeightOf(Prune(l, now, period, countEarly)) == WeightWhere(l, RetainedAt(now, period, countEarly))
  {
    if |l| > 0 {
      PruneWeight(l[1..], now, period, countEarly);
      var rest := Prune(l[1..], now, period, countEarly);
      if Retained(l[0], now, period, countEarly) {
        assert ([l[0]] + rest)[1..] == rest;
      }
    }
  }

  /** Pushing an entry adds its weight to the total. */
  lemma PushAddsWeight(l: seq<Entry>, e: Entry)
    ensures WeightOf(l + [e]) == WeightOf(l) + e.weight
  {
    WeightWhereAppend(l, [e], Any);
    assert [e][1..] == [];
  }

  lemma {:induction false} NonNegativeSelected(l: seq<Entry>, r: seq<Entry>)
    requires NonNegative(l)
    requires forall e :: e in r ==> e in l
    ensures NonNegative(r)
  {
    forall i | 0 <= i < |r|
      ensures r[i].weight >= 0
    {
      assert r[i] in l;
      var j :| 0 <= j < |l| && l[j] == r[i];
    }
  }

  lemma {:induction false} NonNegativeMarked(l: seq<Entry>, id: nat, now: int)
    requires NonNegative(l)
    ensures NonNegative(MarkFinished(l, id, now))
  {
  }
}

=== FILE: ledger_sort.dfy ===
/**
 * The in-place `lasts.sort((a, b) => b.millis - a.millis)` of the weighted
 * limiter: a stable sort that puts the largest `millis` first. JavaScript's
 * `Array.prototype.sort` is stable, so entries with equal `millis` keep their
 * ledger order; insertion sort that inserts each entry before its equals does
 * the same.
 */
module LedgerSort {
  import opened Ledger

  /** Entries appear newest `millis` first. */
  predicate NewestFirst(s: seq<Entry>)
  {
    forall i, j :: 0 <= i < j < |s| ==> s[i].millis >= s[j].millis
  }

  /** Inserts `e` before the first entry of `t` that is not newer than it. */
  function Insert(e: Entry, t: seq<Entry>): (r: seq<Entry>)
    ensures multiset(r) == multiset{e} + multiset(t)
    ensures |r| == |t| + 1
    ensures NewestFirst(t) ==> NewestFirst(r)
  {
    if |t| == 0 || e.millis >= t[0].millis then
      [e] + t
    else
      assert t == [t[0]] + t[1..];
      var rest := Insert(e, t[1..]);
      assert NewestFirst(t) ==> NewestFirst([t[0]] + rest) by {
        if NewestFirst(t) {
          assert NewestFirst(t[1..]);
          InsertBehindHead(e, t, rest);
        }
      }
      [t[0]] + rest
  }

  /**
   * The head of a newest-first `t` is at least as new as every entry of
   * `rest`, which holds `e` and the tail of `t`, so it may stay in front.
   */
  lemma InsertBehindHead(e: Entry, t: seq<Entry>, rest: seq<Entry>)
    requires NewestFirst(t) && |t| > 0 && e.millis < t[0].millis
    requires multiset(rest) == multiset{e} + multiset(t[1..]) && NewestFirst(rest)
    ensures NewestFirst([t[0]] + rest)
  {
    var r := [t[0]] + rest;
    forall j | 0 < j < |r|
      ensures r[0].millis >= r[j].millis
    {
      assert r[j] == rest[j - 1];
      assert r[j] in multiset(rest);
      if r[j] != e {
        assert r[j] in multiset(t[1..]);
        assert r[j] in t[1..];
      }
    }
    forall i, j | 0 < i < j < |r|
      ensures r[i].millis >= r[j].millis
    {
      assert r[i] == rest[i - 1] && r[j] == rest[j - 1];
    }
  }

  /** The ledger after the sort: same entries, newest `millis` first. */
  function Sort(l: seq<Entry>): (r: seq<Entry>)
    ensures multiset(r) == multiset(l)
    ensures NewestFirst(r)
    ensures |r| == |l|
  {
    if |l| == 0 then []
    else
      assert l == [l[0]] + l[1..];
      Insert(l[0], Sort(l[1..]))
  }

  lemma {:induction false} InsertWeight(e: Entry, t: seq<Entry>, keep: Entry -> bool)
    ensures WeightWhere(Insert(e, t), keep) == (if keep(e) then e.weight else 0) + WeightWhere(t, keep)
  {
    if |t| == 0 || e.millis >= t[0].millis {
      assert ([e] + t)[1..] == t;
    } else {
      var rest := Insert(e, t[1..]);
      assert ([t[0]] + rest)[1..] == rest;
      InsertWeight(e, t[1..], keep);
    }
  }

  /** Sorting moves entries around but changes no selected weight. */
  lemma {:induction false} SortKeepsWeight(l: seq<Entry>, keep: Entry -> bool)
    ensures WeightWhere(Sort(l), keep) == WeightWhere(l, keep)
  {
    if |l| > 0 {
      SortKeepsWeight(l[1..], keep);
      InsertWeight(l[0], Sort(l[1..]), keep);
    }
  }

  /** The entries of `l` stamped `m`, in their order in `l`. */
  function StampedAt(l: seq<Entry>, m: int): seq<Entry>
  {
    if |l| == 0 then [] else (if l[0].millis == m then [l[0]] else []) + StampedAt(l[1..], m)
  }

  /**
   * `e` goes in front of every entry of `t` stamped like it, since `Insert`
   * only steps over strictly newer entries.
   */
  lemma {:induction false} InsertStamped(e: Entry, t: seq<Entry>, m: int)
    ensures StampedAt(Insert(e, t), m) == (if e.millis == m then [e] else []) + StampedAt(t, m)
  {
    if |t| == 0 || e.millis >= t[0].millis {
      assert ([e] + t)[1..] == t;
    } else {
      var rest := Insert(e, t[1..]);
      assert ([t[0]] + rest)[1..] == rest;
      InsertStamped(e, t[1..], m);
    }
  }

  /** The sort is stable: entries with equal `millis` keep their ledger order. */
  lemma {:induction false} SortIsStable(l: seq<Entry>, m: int)
    ensures StampedAt(Sort(l), m) == StampedAt(l, m)
  {
    if |l| > 0 {
      SortIsStable(l[1..], m);
      InsertStamped(l[0], Sort(l[1..]), m);
    }
  }

  lemma SortKeepsMembers(l: seq<Entry>)
    ensures forall e :: e in Sort(l) <==> e in l
  {
    var r := Sort(l);
    forall e
      ensures e in r <==> e in l
    {
      assert e in r <==> e in multiset(r);
      assert e in l <==> e in multiset(l);
    }
  }
}

=== FILE: maybe.dfy ===
/** Small failure-carrying datatypes shared by the limiter modules. */
module Maybe {

  /** An optional value; `None` stands for a JavaScript `undefined`. */
  datatype Option<+T> = None | Some(value: T)

  /** The outcome of a constructor that may throw an `Error` with a message. */
  datatype Result<+T> = Ok(value: T) | Err(message: string)

  /** JavaScript truthiness of an optional number: `undefined` and `0` are falsy. */
  predicate Truthy(v: Option<int>)
  {
    v.Some? && v.value != 0
  }

  /**
   * What the limiter does with an availability answer. `Code(n)` is the number
   * `isAvailable` returns; `Missing` is the count copies' `undefined` (a loop that
   * falls through) or the weighted copy's `throw 'unexpected error'`.
   */
  datatype Answer = Code(n: int) | Missing
}

=== FILE: weight_engine.dfy ===
/**
 * The event-driven part of src/rateLimitWeight.js: `handleReq` takes the
 * call's weight from its first argument and admits or queues it, `onFinish`
 * reacts to a completion by popping the queue head (to send now or after a
 * timer), and a timer later sends the call it carries. Each reaction is one
 * step of a state machine over an explicit time `now`.
 */
module WeightEngine {
  import opened Maybe
  import opened Calls
  import opened Ledger
  import opened LedgerSort
  import opened WeightLimiter

  /** A call whose first argument became its weight and whose other arguments are forwarded. */
  datatype Pending = Pending(call: Call, weight: int)

  /** A timer armed by `onFinish`, carrying the call it popped. */
  datatype Timer = Timer(delay: int, pending: Pending)

  /**
   * The limiter's state: the ledger `lasts`, the FIFO `queue`, the timers armed
   * and not yet fired, the calls in the client's hands, the next entry id, and
   * the promises settled so far.
   */
  datatype State = State(
    cfg: Config,
    ledger: seq<Entry>,
    queue: seq<Pending>,
    timers: seq<Timer>,
    flights: seq<Flight>,
    nextId: nat,
    settled: seq<Settlement>)

  function Init(cfg: Config): State
  {
    State(cfg, [], [], [], [], 0, [])
  }

  /**
   * `handleReq`'s argument split: the first argument is the weight and the
   * rest are forwarded. Only number weights are modelled: `Opaque` stands for a
   * first argument whose sum with the ledger total is not a number, and the
   * model gives it no weight.
   */
  function SplitWeight(c: Call): (r: Option<Pending>)
    ensures r.None? <==> |c.args| == 0 || c.args[0].Opaque?
    ensures r.Some? ==>
      && r.value.call.handle == c.handle && r.value.call.verb == c.verb
      && [Num(r.value.weight)] + r.value.call.args == c.args
  {
    if |c.args| == 0 || c.args[0].Opaque? then None
    else
      assert c.args == [c.args[0]] + c.args[1..];
      Some(Pending(c.(args := c.args[1..]), c.args[0].n))
  }

  function PendingHandle(p: Pending): nat { p.call.handle }

  function TimerHandle(t: Timer): nat { t.pending.call.handle }

  /** Every promise handle the limiter holds: queued, carried by a timer, in flight, or settled. */
  function AllHandles(s: State): multiset<nat>
  {
    Handles(s.queue, PendingHandle) + Handles(s.timers, TimerHandle)
      + Handles(s.flights, FlightHandle) + Handles(s.settled, SettledHandle)
  }

  /** The entry `sendReq` pushes for a call of weight `w` handed to the client at `now`. */
  function NewEntry(s: State, now: int, w: int): Entry
  {
    Entry(s.nextId, now, false, w)
  }

  /** `sendReq`: push an unfinished entry carrying the weight and hand the call to the client. */
  function Send(s: State, p: Pending, now: int): (s': State)
    ensures s'.ledger == s.ledger + [Entry(s.nextId, now, false, p.weight)]
    ensures s'.flights == s.flights + [Flight(s.nextId, p.call)]
    ensures s'.nextId == s.nextId + 1
    ensures s'.cfg == s.cfg && s'.queue == s.queue && s'.timers == s.timers && s'.settled == s.settled
    ensures AllHandles(s') == AllHandles(s) + multiset{p.call.handle}
    ensures WeightOf(s'.ledger) == WeightOf(s.ledger) + p.weight
  {
    HandlesPush(s.flights, Flight(s.nextId, p.call), FlightHandle);
    PushAddsWeight(s.ledger, NewEntry(s, now, p.weight));
    s.(ledger := s.ledger + [NewEntry(s, now, p.weight)],
       flights := s.flights + [Flight(s.nextId, p.call)],
       nextId := s.nextId + 1)
  }

  /** A promise rejected with `'unexpected error'`. */
  function Throw(s: State, handle: nat): State
  {
    s.(settled := s.settled + [Settlement(handle, Rejected(UnexpectedError))])
  }

  lemma ThrowHandles(s: State, handle: nat)
    ensures AllHandles(Throw(s, handle)) == AllHandles(s) + multiset{handle}
  {
    HandlesPush(s.settled, Settlement(handle, Rejected(UnexpectedError)), SettledHandle);
  }

  /**
   * `handleReq`: split off the weight, prune, and send at once when
   * `isAvailable` answers 0; any other answer queues the call, even a delay,
   * for which no timer is armed. A call without a numeric weight, or one whose
   * check throws, is rejected with `'unexpected error'` after the ledger has
   * been pruned and sorted.
   */
  function Admit(s: State, c: Call, now: int): (s': State)
    ensures s'.cfg == s.cfg && s'.timers == s.timers
    ensures s'.nextId == s.nextId + |s'.flights| - |s.flights|
    ensures AllHandles(s') == AllHandles(s) + multiset{c.handle}
    ensures SplitWeight(c).None? ==>
      && s'.ledger == Sort(Prune(s.ledger, now, s.cfg.period, s.cfg.calculateBeforeResp))
      && s'.queue == s.queue && s'.flights == s.flights
      && s'.settled == s.settled + [Settlement(c.handle, Rejected(UnexpectedError))]
    ensures SplitWeight(c).Some? ==>
      var p := SplitWeight(c).value;
      var av := IsAvailable(s.ledger, s.cfg, now, p.weight);
      if av.answer == Code(0) then
        && s'.ledger == av.ledger + [NewEntry(s, now, p.weight)]
        && s'.flights == s.flights + [Flight(s.nextId, p.call)]
        && s'.queue == s.queue && s'.settled == s.settled
      else if av.answer == Missing then
        && s'.ledger == av.ledger && s'.queue == s.queue && s'.flights == s.flights
        && s'.settled == s.settled + [Settlement(c.handle, Rejected(UnexpectedError))]
      else
        && s'.ledger == av.ledger && s'.flights == s.flights && s'.settled == s.settled
        && s'.queue == s.queue + [p]
  {
    var kept := Prune(s.ledger, now, s.cfg.period, s.cfg.calculateBeforeResp);
    match SplitWeight(c)
    case None =>
      ThrowHandles(s.(ledger := Sort(kept)), c.handle);
      Throw(s.(ledger := Sort(kept)), c.handle)
    case Some(p) =>
      var av := IsAvailable(s.ledger, s.cfg, now, p.weight);
      var s1 := s.(ledger := av.ledger);
      if av.answer == Code(0) then
        Send(s1, p, now)
      else if av.answer == Missing then
        ThrowHandles(s1, c.handle);
        Throw(s1, c.handle)
      else
        HandlesPush(s.queue, p, PendingHandle);
        s1.(queue := s.queue + [p])
  }

  /**
   * On a ledger of non-negative weights `handleReq` sends a weighed call at once
   * exactly when the retained weight plus its own stays below the limit, and
   * the ledger's total then stays below the limit; otherwise the call queues.
   */
  lemma AdmitSendsIffFits(s: State, c: Call, now: int)
    requires NonNegative(s.ledger) && SplitWeight(c).Some?
    ensures var p := SplitWeight(c).value;
      var kept := Prune(s.ledger, now, s.cfg.period, s.cfg.calculateBeforeResp);
      var s' := Admit(s, c, now);
      && (|s'.flights| > |s.flights| <==> Fits(kept, s.cfg, p.weight))
      && (Fits(kept, s.cfg, p.weight) ==> WeightOf(s'.ledger) < s.cfg.weightLimit)
      && (!Fits(kept, s.cfg, p.weight) ==> s'.queue == s.queue + [p])
  {
    var p := SplitWeight(c).value;
    var kept := Prune(s.ledger, now, s.cfg.period, s.cfg.calculateBeforeResp);
    var av := IsAvailable(s.ledger, s.cfg, now, p.weight);
    assert av == CalcWeights(kept, s.cfg, now, p.weight);
    IsAvailableKeepsNonNegative(s.ledger, s.cfg, now, p.weight);
    if Fits(kept, s.cfg, p.weight) {
      PushAddsWeight(kept, NewEntry(s, now, p.weight));
    }
  }

  /** `onFinish`'s first two statements for flight `k`: its entry becomes finished at `now`. */
  function Finish(s: State, k: nat, now: int): (s': State)
    requires k < |s.flights|
    ensures |s'.ledger| == |s.ledger|
    ensures forall i :: 0 <= i < |s.ledger| ==>
      if s.ledger[i].id == s.flights[k].id then s'.ledger[i] == s.ledger[i].(finished := true, millis := now)
      else s'.ledger[i] == s.ledger[i]
    ensures s'.flights == RemoveAt(s.flights, k)
    ensures s'.cfg == s.cfg && s'.queue == s.queue && s'.timers == s.timers
    ensures s'.settled == s.settled && s'.nextId == s.nextId
  {
    s.(ledger := MarkFinished(s.ledger, s.flights[k].id, now), flights := RemoveAt(s.flights, k))
  }

  lemma FinishHandles(s: State, k: nat, now: int)
    requires k < |s.flights|
    ensures AllHandles(Finish(s, k, now)) + multiset{s.flights[k].call.handle} == AllHandles(s)
  {
    HandlesRemove(s.flights, k, FlightHandle);
  }

  /** The state after `onFinish` has looked at the queue, and whether it threw. */
  datatype Reaction = Reaction(state: State, threw: bool)

  /**
   * The rest of `onFinish`: with a non-empty queue ask `isAvailable` about the
   * head's weight; on 0 pop and send it, on a positive delay pop it into a
   * timer, on -1 leave it, and if `calcWeights` throws, throw.
   */
  function Drain(s: State, now: int): (r: Reaction)
    ensures r.state.cfg == s.cfg && r.state.settled == s.settled
    ensures r.state.nextId == s.nextId + |r.state.flights| - |s.flights|
    ensures AllHandles(r.state) == AllHandles(s)
    ensures |s.queue| == 0 ==> r == Reaction(s, false)
    ensures |s.queue| > 0 ==>
      var head := s.queue[0];
      var av := IsAvailable(s.ledger, s.cfg, now, head.weight);
      && (r.threw <==> av.answer == Missing)
      && (if av.answer == Code(0) then
            && r.state.queue == s.queue[1..]
            && r.state.ledger == av.ledger + [NewEntry(s, now, head.weight)]
            && r.state.flights == s.flights + [Flight(s.nextId, head.call)]
            && r.state.timers == s.timers
          else if av.answer.Code? && av.answer.n > 0 then
            && r.state.queue == s.queue[1..]
            && r.state.timers == s.timers + [Timer(av.answer.n, head)]
            && r.state.ledger == av.ledger
            && r.state.flights == s.flights
          else
            && r.state.queue == s.queue
            && r.state.timers == s.timers
            && r.state.ledger == av.ledger
            && r.state.flights == s.flights)
  {
    if |s.queue| == 0 then Reaction(s, false)
    else
      var head := s.queue[0];
      var av := IsAvailable(s.ledger, s.cfg, now, head.weight);
      var s1 := s.(ledger := av.ledger);
      if av.answer == Code(0) then
        PopHandles(s1);
        Reaction(Send(s1.(queue := s.queue[1..]), head, now), false)
      else if av.answer.Code? && av.answer.n > 0 then
        PopIntoTimerHandles(s1, av.answer.n);
        Reaction(s1.(queue := s.queue[1..], timers := s.timers + [Timer(av.answer.n, head)]), false)
      else
        Reaction(s1, av.answer == Missing)
  }

  lemma PopHandles(s: State)
    requires |s.queue| > 0
    ensures AllHandles(s.(queue := s.queue[1..])) + multiset{s.queue[0].call.handle} == AllHandles(s)
  {
    assert Handles(s.queue, PendingHandle) == multiset{PendingHandle(s.queue[0])} + Handles(s.queue[1..], PendingHandle);
  }

  lemma PopIntoTimerHandles(s: State, delay: int)
    requires |s.queue| > 0
    ensures AllHandles(s.(queue := s.queue[1..], timers := s.timers + [Timer(delay, s.queue[0])])) == AllHandles(s)
  {
    PopHandles(s);
    HandlesPush(s.timers, Timer(delay, s.queue[0]), TimerHandle);
  }

  /**
   * `onFinish` as `sendReq` runs it for an entry `id`: once, and if that
   * throws, once more from its catch (marking the entry again changes nothing
   * but the ledger's copy of it). The second run is the success path's: when
   * the client's call itself failed, the catch runs `onFinish` only once, but
   * this function runs it twice on both paths. A run can throw only on a
   * ledger holding a negative weight (`IsAvailableKeepsNonNegative`), so on
   * non-negative weights the two paths agree. The result says whether the
   * first run threw.
   */
  function Retry(s: State, id: nat, now: int): (r: Reaction)
    ensures r.state.cfg == s.cfg && r.state.settled == s.settled
    ensures AllHandles(r.state) == AllHandles(s)
    ensures r.threw == Drain(s, now).threw
    ensures r.state.queue == s.queue || (|s.queue| > 0 && r.state.queue == s.queue[1..])
    ensures !r.threw ==> r == Drain(s, now)
  {
    var first := Drain(s, now);
    if first.threw then
      var again := first.state.(ledger := MarkFinished(first.state.ledger, id, now));
      assert AllHandles(again) == AllHandles(first.state);
      Reaction(Drain(again, now).state, true)
    else first
  }

  /** The caller's promise settles. */
  function Record(s: State, t: Settlement): (s': State)
    ensures AllHandles(s') == AllHandles(s) + multiset{t.handle}
    ensures s'.settled == s.settled + [t]
  {
    HandlesPush(s.settled, t, SettledHandle);
    s.(settled := s.settled + [t])
  }

  /**
   * On a ledger of non-negative weights `onFinish` sends the head at once
   * exactly when it fits (and the total then stays below the limit), pops it
   * into a timer of at least one millisecond exactly when the finished weight
   * could make room, and otherwise leaves the queue alone.
   */
  lemma DrainFollowsBranches(s: State, now: int)
    requires NonNegative(s.ledger) && |s.queue| > 0
    ensures var head := s.queue[0];
      var kept := Prune(s.ledger, now, s.cfg.period, s.cfg.calculateBeforeResp);
      var r := Drain(s, now);
      && !r.threw
      && (Fits(kept, s.cfg, head.weight) ==>
            && r.state.queue == s.queue[1..] && |r.state.flights| == |s.flights| + 1
            && WeightOf(r.state.ledger) < s.cfg.weightLimit)
      && (Waits(kept, s.cfg, head.weight) ==>
            && r.state.queue == s.queue[1..] && r.state.flights == s.flights
            && |r.state.timers| == |s.timers| + 1
            && r.state.timers[|s.timers|].pending == head && r.state.timers[|s.timers|].delay >= 1)
      && (Stuck(kept, s.cfg, head.weight) ==>
            && r.state.queue == s.queue && r.state.flights == s.flights && r.state.timers == s.timers)
  {
    var head := s.queue[0];
    var kept := Prune(s.ledger, now, s.cfg.period, s.cfg.calculateBeforeResp);
    var av := IsAvailable(s.ledger, s.cfg, now, head.weight);
    assert av == CalcWeights(kept, s.cfg, now, head.weight);
    IsAvailableKeepsNonNegative(s.ledger, s.cfg, now, head.weight);
    if Fits(kept, s.cfg, head.weight) {
      PushAddsWeight(kept, NewEntry(s, now, head.weight));
    }
  }

  /**
   * Flight `k` completes with `outcome`. `sendReq` awaits `onFinish`; when that
   * throws, the caller's promise is rejected with `'unexpected error'` in place
   * of the outcome.
   */
  function Complete(s: State, k: nat, outcome: Outcome, now: int): (s': State)
    requires k < |s.flights|
    ensures s'.cfg == s.cfg
    ensures AllHandles(s') == AllHandles(s)
    ensures var first := Drain(Finish(s, k, now), now);
      s'.settled == s.settled + [Settlement(s.flights[k].call.handle,
                                            if first.threw then Rejected(UnexpectedError) else outcome)]
    ensures s'.queue == s.queue || (|s.queue| > 0 && s'.queue == s.queue[1..])
    ensures |s.queue| == 0 ==>
      && s'.ledger == MarkFinished(s.ledger, s.flights[k].id, now)
      && s'.queue == s.queue && s'.timers == s.timers
      && s'.flights == RemoveAt(s.flights, k)
    ensures var first := Drain(Finish(s, k, now), now);
      !first.threw ==> s'.(settled := s.settled) == first.state
  {
    var f := s.flights[k];
    var s1 := Finish(s, k, now);
    FinishHandles(s, k, now);
    var r := Retry(s1, f.id, now);
    Record(r.state, Settlement(f.call.handle, if r.threw then Rejected(UnexpectedError) else outcome))
  }

  /** A timer fires: the call it carries is sent without asking `isAvailable` again. */
  function FireTimer(s: State, i: nat, now: int): (s': State)
    requires i < |s.timers|
    ensures s'.cfg == s.cfg && s'.settled == s.settled && s'.queue == s.queue
    ensures s'.timers == RemoveAt(s.timers, i)
    ensures s'.ledger == s.ledger + [NewEntry(s, now, s.timers[i].pending.weight)]
    ensures s'.flights == s.flights + [Flight(s.nextId, s.timers[i].pending.call)]
    ensures AllHandles(s') == AllHandles(s)
  {
    var t := s.timers[i];
    HandlesRemove(s.timers, i, TimerHandle);
    Send(s.(timers := RemoveAt(s.timers, i)), t.pending, now)
  }

  /** The outcome a call settles with affects only its own promise, never the accounting. */
  lemma FailureFreesLikeSuccess(s: State, k: nat, a: Outcome, b: Outcome, now: int)
    requires k < |s.flights|
    ensures Complete(s, k, a, now).(settled := s.settled) == Complete(s, k, b, now).(settled := s.settled)
  {
  }

  /** Every weight the limiter holds, in the ledger, the queue or a timer, is non-negative. */
  predicate WeightsNonNegative(s: State)
  {
    && NonNegative(s.ledger)
    && (forall i :: 0 <= i < |s.queue| ==> s.queue[i].weight >= 0)
    && (forall i :: 0 <= i < |s.timers| ==> s.timers[i].pending.weight >= 0)
  }

  /** A call whose weight, if any, is non-negative. */
  predicate WeighsNonNegative(c: Call)
  {
    SplitWeight(c).Some? ==> SplitWeight(c).value.weight >= 0
  }

  lemma DrainNonNegative(s: State, now: int)
    requires WeightsNonNegative(s)
    ensures WeightsNonNegative(Drain(s, now).state)
    ensures !Drain(s, now).threw
  {
    if |s.queue| > 0 {
      IsAvailableKeepsNonNegative(s.ledger, s.cfg, now, s.queue[0].weight);
      var av := IsAvailable(s.ledger, s.cfg, now, s.queue[0].weight);
      if av.answer == Code(0) {
        DrainSendNonNegative(s, now);
      } else if av.answer.n > 0 {
        DrainArmNonNegative(s, now);
      }
    }
  }

  lemma DrainSendNonNegative(s: State, now: int)
    requires WeightsNonNegative(s) && |s.queue| > 0
    requires IsAvailable(s.ledger, s.cfg, now, s.queue[0].weight).answer == Code(0)
    ensures WeightsNonNegative(Drain(s, now).state)
  {
    var head := s.queue[0];
    IsAvailableKeepsNonNegative(s.ledger, s.cfg, now, head.weight);
    var av := IsAvailable(s.ledger, s.cfg, now, head.weight);
    var r := Drain(s, now).state;
    PushKeepsNonNegative(av.ledger, NewEntry(s, now, head.weight));
    PopKeepsNonNegative(s, r);
  }

  lemma DrainArmNonNegative(s: State, now: int)
    requires WeightsNonNegative(s) && |s.queue| > 0
    requires IsAvailable(s.ledger, s.cfg, now, s.queue[0].weight).answer.Code?
    requires IsAvailable(s.ledger, s.cfg, now, s.queue[0].weight).answer.n > 0
    ensures WeightsNonNegative(Drain(s, now).state)
  {
    var head := s.queue[0];
    IsAvailableKeepsNonNegative(s.ledger, s.cfg, now, head.weight);
    var av := IsAvailable(s.ledger, s.cfg, now, head.weight);
    var r := Drain(s, now).state;
    PopIntoTimerKeepsNonNegative(s, r, Timer(av.answer.n, head));
  }

  lemma PushKeepsNonNegative(l: seq<Entry>, e: Entry)
    requires NonNegative(l) && e.weight >= 0
    ensures NonNegative(l + [e])
  {
    forall i | 0 <= i < |l + [e]|
      ensures (l + [e])[i].weight >= 0
    {
      if i < |l| {
        assert (l + [e])[i] == l[i];
      }
    }
  }

  /** Dropping the queue head keeps the queued weights non-negative. */
  lemma PopKeepsNonNegative(s: State, r: State)
    requires WeightsNonNegative(s) && |s.queue| > 0
    requires NonNegative(r.ledger) && r.queue == s.queue[1..] && r.timers == s.timers
    ensures WeightsNonNegative(r)
  {
    forall i | 0 <= i < |r.queue|
      ensures r.queue[i].weight >= 0
    {
      assert r.queue[i] == s.queue[i + 1];
    }
  }

  /** Moving the queue head into a timer keeps the held weights non-negative. */
  lemma PopIntoTimerKeepsNonNegative(s: State, r: State, t: Timer)
    requires WeightsNonNegative(s) && |s.queue| > 0 && t.pending == s.queue[0]
    requires NonNegative(r.ledger) && r.queue == s.queue[1..] && r.timers == s.timers + [t]
    ensures WeightsNonNegative(r)
  {
    forall i | 0 <= i < |r.timers|
      ensures r.timers[i].pending.weight >= 0
    {
      if i < |s.timers| {
        assert r.timers[i] == s.timers[i];
      }
    }
    PopKeepsNonNegative(s, r.(timers := s.timers));
  }

  lemma AdmitKeepsNonNegative(s: State, c: Call, now: int)
    requires WeightsNonNegative(s) && WeighsNonNegative(c)
    ensures WeightsNonNegative(Admit(s, c, now))
  {
    match SplitWeight(c)
    case None => AdmitRejectNonNegative(s, c, now);
    case Some(p) =>
      IsAvailableKeepsNonNegative(s.ledger, s.cfg, now, p.weight);
      if IsAvailable(s.ledger, s.cfg, now, p.weight).answer == Code(0) {
        AdmitSendNonNegative(s, c, now);
      } else {
        AdmitQueueNonNegative(s, c, now);
      }
  }

  lemma AdmitRejectNonNegative(s: State, c: Call, now: int)
    requires WeightsNonNegative(s) && SplitWeight(c).None?
    ensures WeightsNonNegative(Admit(s, c, now))
  {
    var kept := Prune(s.ledger, now, s.cfg.period, s.cfg.calculateBeforeResp);
    NonNegativeSelected(s.ledger, kept);
    SortKeepsMembers(kept);
    NonNegativeSelected(kept, Sort(kept));
  }

  lemma AdmitSendNonNegative(s: State, c: Call, now: int)
    requires WeightsNonNegative(s) && WeighsNonNegative(c) && SplitWeight(c).Some?
    requires IsAvailable(s.ledger, s.cfg, now, SplitWeight(c).value.weight).answer == Code(0)
    ensures WeightsNonNegative(Admit(s, c, now))
  {
    var p := SplitWeight(c).value;
    IsAvailableKeepsNonNegative(s.ledger, s.cfg, now, p.weight);
    var av := IsAvailable(s.ledger, s.cfg, now, p.weight);
    PushKeepsNonNegative(av.ledger, NewEntry(s, now, p.weight));
    assert Admit(s, c, now).ledger == av.ledger + [NewEntry(s, now, p.weight)];
  }

  lemma AdmitQueueNonNegative(s: State, c: Call, now: int)
    requires WeightsNonNegative(s) && WeighsNonNegative(c) && SplitWeight(c).Some?
    requires IsAvailable(s.ledger, s.cfg, now, SplitWeight(c).value.weight).answer != Code(0)
    ensures WeightsNonNegative(Admit(s, c, now))
  {
    var p := SplitWeight(c).value;
    IsAvailableKeepsNonNegative(s.ledger, s.cfg, now, p.weight);
    var av := IsAvailable(s.ledger, s.cfg, now, p.weight);
    var r := Admit(s, c, now);
    assert av.answer != Missing;
    assert r.queue == s.queue + [p];
    forall i | 0 <= i < |r.queue|
      ensures r.queue[i].weight >= 0
    {
      if i < |s.queue| {
        assert r.queue[i] == s.queue[i];
      }
    }
  }

  lemma {:induction false} CompleteKeepsNonNegative(s: State, k: nat, outcome: Outcome, now: int)
    requires WeightsNonNegative(s) && k < |s.flights|
    ensures WeightsNonNegative(Complete(s, k, outcome, now))
    ensures Complete(s, k, outcome, now).settled == s.settled + [Settlement(s.flights[k].call.handle, outcome)]
  {
    var s1 := Finish(s, k, now);
    NonNegativeMarked(s.ledger, s.flights[k].id, now);
    assert WeightsNonNegative(s1);
    DrainNonNegative(s1, now);
  }

  lemma FireKeepsNonNegative(s: State, i: nat, now: int)
    requires WeightsNonNegative(s) && i < |s.timers|
    ensures WeightsNonNegative(FireTimer(s, i, now))
  {
    var s' := FireTimer(s, i, now);
    assert NonNegative(s'.ledger) by {
      forall j | 0 <= j < |s'.ledger|
        ensures s'.ledger[j].weight >= 0
      {
        if j < |s.ledger| {
          assert s'.ledger[j] == s.ledger[j];
        }
      }
    }
  }

  /**
   * While every admitted weight is non-negative, every step keeps all held
   * weights non-negative and `onFinish` never throws, so each completed call
   * settles with its own outcome.
   */
  lemma StepsKeepWeightsNonNegative(s: State, c: Call, k: nat, outcome: Outcome, i: nat, now: int)
    requires WeightsNonNegative(s) && WeighsNonNegative(c)
    ensures WeightsNonNegative(Admit(s, c, now))
    ensures k < |s.flights| ==>
      && WeightsNonNegative(Complete(s, k, outcome, now))
      && Complete(s, k, outcome, now).settled == s.settled + [Settlement(s.flights[k].call.handle, outcome)]
    ensures i < |s.timers| ==> WeightsNonNegative(FireTimer(s, i, now))
  {
    AdmitKeepsNonNegative(s, c, now);
    if k < |s.flights| {
      CompleteKeepsNonNegative(s, k, outcome, now);
    }
    if i < |s.timers| {
      FireKeepsNonNegative(s, i, now);
    }
  }

  /**
   * A queue head weighing at least the limit stays at the head for good: while
   * the ledger's weights are non-negative, `onFinish` answers -1 for it every
   * time, so it blocks every call queued behind it.
   */
  lemma OversizedHeadStalls(s: State, now: int)
    requires NonNegative(s.ledger) && |s.queue| > 0 && s.queue[0].weight >= s.cfg.weightLimit
    ensures Drain(s, now).state.queue == s.queue
    ensures Drain(s, now).state.timers == s.timers
    ensures Drain(s, now).state.flights == s.flights
  {
    OversizedIsBlocked(s.ledger, s.cfg, now, s.queue[0].weight);
  }

  /** A weight limit of 3 per second, entries counted from the response. */
  function RunConfig(): Config { Config(3, 1000, false) }

  /** Call `h` as the caller makes it, with weight `w` as its first argument. */
  function RunCall(h: nat, w: int): Call { Call(h, Get, [Num(w)]) }

  /** Call `h` as the client receives it, with the weight split off. */
  function RunSent(h: nat): Call { Call(h, Get, []) }

  /** The first two flights of the run and the promises it settles. */
  function RunFlight(h: nat): Flight { Flight(h, RunSent(h)) }

  function RunDone(h: nat): Settlement { Settlement(h, Resolved(0)) }

  /** Call 2 as it waits: weight 2, nothing else forwarded. */
  function Heavy(): Pending { Pending(RunSent(2), 2) }

  /**
   * The states of a run from a fresh limiter: calls 0 and 1 of weight 1 are
   * sent at `t` and `t + 50`; call 0 completes at `t + 100`; call 2 of weight
   * 2 queues at `t + 150`; call 1 completes at `t + 900` and arms a timer for
   * call 2; the timer fires at `t + 1100`.
   */
  function FirstSent(t: int): State
  {
    State(RunConfig(), [Entry(0, t, false, 1)], [], [], [RunFlight(0)], 1, [])
  }

  function BothSent(t: int): State
  {
    State(RunConfig(), [Entry(0, t, false, 1), Entry(1, t + 50, false, 1)], [], [], [RunFlight(0), RunFlight(1)], 2, [])
  }

  function FirstDone(t: int): State
  {
    State(RunConfig(), [Entry(0, t + 100, true, 1), Entry(1, t + 50, false, 1)], [], [], [RunFlight(1)], 2, [RunDone(0)])
  }

  function HeavyQueued(t: int): State
  {
    FirstDone(t).(queue := [Heavy()])
  }

  /** The ledger `onFinish` sees when call 1 completes at `t + 900`: both units finished. */
  function RunFinishedLedger(t: int): seq<Entry>
  {
    [Entry(0, t + 100, true, 1), Entry(1, t + 900, true, 1)]
  }

  function HeavyArmed(t: int): State
  {
    State(RunConfig(), [RunFinishedLedger(t)[1], RunFinishedLedger(t)[0]], [], [Timer(200, Heavy())], [], 2,
          [RunDone(0), RunDone(1)])
  }

  function HeavySent(t: int): State
  {
    HeavyArmed(t).(ledger := HeavyArmed(t).ledger + [Entry(2, t + 1100, false, 2)], timers := [],
                   flights := [Flight(2, RunSent(2))], nextId := 3)
  }

  /** Both first calls fit the empty and the one-entry ledger and are sent at once. */
  lemma RunSends(t: int)
    ensures Admit(Init(RunConfig()), RunCall(0, 1), t) == FirstSent(t)
    ensures Admit(FirstSent(t), RunCall(1, 1), t + 50) == BothSent(t)
  {
    var cfg := RunConfig();
    assert Prune([], t, 1000, false) == [];
    assert Fits([], cfg, 1);
    var l := FirstSent(t).ledger;
    PruneKeepsAllRetained(l, t + 50, 1000, false);
    PushAddsWeight([], l[0]);
    assert [] + [l[0]] == l;
    assert Fits(l, cfg, 1);
  }

  /** Call 0 completes with nothing queued: its entry is finished and its promise resolves. */
  lemma RunFirstCompletes(t: int)
    ensures Complete(BothSent(t), 0, Resolved(0), t + 100) == FirstDone(t)
  {
    var s1 := Finish(BothSent(t), 0, t + 100);
    assert s1.ledger == FirstDone(t).ledger;
    assert s1.flights == [RunFlight(1)];
  }

  /** The total and the unfinished weight of a two-entry ledger. */
  lemma TwoWeights(a: Entry, b: Entry)
    ensures WeightOf([a, b]) == a.weight + b.weight
    ensures UnfinishedWeight([a, b]) == (if a.finished then 0 else a.weight) + (if b.finished then 0 else b.weight)
  {
    assert [a, b][1..] == [b] && [b][1..] == [];
    assert WeightWhere([b], Any) == b.weight;
    assert WeightWhere([b], Unfinished) == if b.finished then 0 else b.weight;
  }

  /**
   * `isAvailable` for call 2 at `t + 150`: both units count, and the unfinished
   * one plus the call's own weight reaches the limit, so the answer is -1.
   */
  lemma RunBlocked(t: int)
    ensures IsAvailable(FirstDone(t).ledger, RunConfig(), t + 150, 2) == Availability(Code(-1), FirstDone(t).ledger)
  {
    var l := FirstDone(t).ledger;
    PruneKeepsAllRetained(l, t + 150, 1000, false);
    TwoWeights(l[0], l[1]);
    assert Stuck(l, RunConfig(), 2);
  }

  /** A weighed call answered -1 on a ledger `isAvailable` leaves as it is joins the queue. */
  lemma AdmitQueuesBlocked(s: State, c: Call, p: Pending, now: int)
    requires SplitWeight(c) == Some(p)
    requires IsAvailable(s.ledger, s.cfg, now, p.weight) == Availability(Code(-1), s.ledger)
    ensures Admit(s, c, now) == s.(queue := s.queue + [p])
  {
  }

  /** Call 2, answered -1, queues. */
  lemma RunQueues(t: int)
    ensures Admit(FirstDone(t), RunCall(2, 2), t + 150) == HeavyQueued(t)
  {
    RunBlocked(t);
    AdmitQueuesBlocked(FirstDone(t), RunCall(2, 2), Heavy(), t + 150);
  }

  /**
   * `isAvailable` for call 2 at `t + 900`: both units are inside the window, so
   * the call waits; sorted newest first, the running weight relieves the
   * demand of 4 only at the older unit, whose window ends in 200 ms.
   */
  lemma RunDelay(t: int)
    ensures IsAvailable(RunFinishedLedger(t), RunConfig(), t + 900, 2)
      == Availability(Code(200), [RunFinishedLedger(t)[1], RunFinishedLedger(t)[0]])
  {
    var l := RunFinishedLedger(t);
    var cfg := RunConfig();
    PruneKeepsAllRetained(l, t + 900, 1000, false);
    TwoWeights(l[0], l[1]);
    assert Waits(l, cfg, 2);
    var i := DelayPath(l, cfg, t + 900, 2);
    SortTwo(l[0], l[1]);
    var sorted := [l[1], l[0]];
    assert sorted[..1] == [l[1]] && sorted[..2] == sorted;
    assert !Relieves(sorted, 0, Demand(l, 2), 3);
    assert FirstRelief(sorted, 1, Demand(l, 2), 3);
    FirstReliefUnique(sorted, i, 1, Demand(l, 2), 3);
  }

  /** A completion whose `onFinish` pops the head into a timer of `d` milliseconds. */
  lemma CompleteArms(s: State, k: nat, outcome: Outcome, now: int, f: State, d: int, l: seq<Entry>)
    requires k < |s.flights| && Finish(s, k, now) == f && |f.queue| > 0 && d > 0
    requires IsAvailable(f.ledger, f.cfg, now, f.queue[0].weight) == Availability(Code(d), l)
    ensures Complete(s, k, outcome, now)
      == f.(ledger := l, queue := f.queue[1..], timers := f.timers + [Timer(d, f.queue[0])],
            settled := f.settled + [Settlement(s.flights[k].call.handle, outcome)])
  {
    var r := Drain(f, now);
    assert r == Reaction(f.(ledger := l, queue := f.queue[1..], timers := f.timers + [Timer(d, f.queue[0])]), false);
    assert Retry(f, s.flights[k].id, now) == r;
  }

  /** Call 1 completes at `t + 900`: `onFinish` pops call 2 into a 200 ms timer. */
  lemma RunArms(t: int)
    ensures Complete(HeavyQueued(t), 0, Resolved(0), t + 900) == HeavyArmed(t)
  {
    var f := State(RunConfig(), RunFinishedLedger(t), [Heavy()], [], [], 2, [RunDone(0)]);
    assert Finish(HeavyQueued(t), 0, t + 900) == f;
    RunDelay(t);
    CompleteArms(HeavyQueued(t), 0, Resolved(0), t + 900, f, 200, HeavyArmed(t).ledger);
    assert f.settled + [RunDone(1)] == HeavyArmed(t).settled;
  }

  /**
   * A reachable run on which `onFinish` answers too early: from a fresh
   * limiter, two unit calls are sent, the first completes, a call of weight 2
   * is queued (-1), and when the second completes at `t + 900` the queued
   * call is popped into a 200 ms timer, because the newest-first scan keys the
   * delay to the older finished unit while the newer one stays in the window.
   */
  lemma ShortDelayArms(t: int)
    ensures Admit(Init(RunConfig()), RunCall(0, 1), t) == FirstSent(t)
    ensures Admit(FirstSent(t), RunCall(1, 1), t + 50) == BothSent(t)
    ensures Complete(BothSent(t), 0, Resolved(0), t + 100) == FirstDone(t)
    ensures Admit(FirstDone(t), RunCall(2, 2), t + 150) == HeavyQueued(t)
    ensures Complete(HeavyQueued(t), 0, Resolved(0), t + 900) == HeavyArmed(t)
    ensures HeavyArmed(t).queue == [] && HeavyArmed(t).timers == [Timer(200, Pending(RunSent(2), 2))]
  {
    RunSends(t);
    RunFirstCompletes(t);
    RunQueues(t);
    RunArms(t);
  }

  /**
   * When that timer fires at `t + 1100` the call is sent without a new check,
   * although `handleReq` would refuse it at that instant: the unit finished at
   * `t + 900` still counts, and the retained weight reaches the limit of 3.
   */
  lemma ShortDelayTimerOverfills(t: int)
    ensures FireTimer(HeavyArmed(t), 0, t + 1100) == HeavySent(t)
    ensures !Fits(Prune(HeavyArmed(t).ledger, t + 1100, 1000, false), RunConfig(), 2)
    ensures WeightOf(Prune(HeavySent(t).ledger, t + 1100, 1000, false)) == RunConfig().weightLimit
  {
    var l5 := HeavyArmed(t).ledger;
    var a, b, e := l5[0], l5[1], Entry(2, t + 1100, false, 2);
    assert l5[1..] == [b] && [b][1..] == [];
    assert Prune([b], t + 1100, 1000, false) == [];
    assert Prune(l5, t + 1100, 1000, false) == [a];
    var l6 := HeavySent(t).ledger;
    assert l6 == l5 + [e];
    assert l6[1..] == [b, e] && [b, e][1..] == [e] && [e][1..] == [];
    assert Prune([e], t + 1100, 1000, false) == [e];
    assert Prune([b, e], t + 1100, 1000, false) == [e];
    assert Prune(l6, t + 1100, 1000, false) == [a] + [e];
    PushAddsWeight([a], e);
    PushAddsWeight([], a);
    assert [] + [a] == [a];
  }
}

=== FILE: weight_limiter.dfy ===
/**
 * The weighted limiter of src/rateLimitWeight.js: configuration, constructor
 * option resolution, and `calcWeights`/`isAvailable`, which compare the sum of
 * retained weights plus the candidate's weight against `weightLimit`.
 */
module WeightLimiter {
  import opened Maybe
  import opened Ledger
  import opened LedgerSort

  const DefaultWeightLimit: int := 18
  const DefaultPeriod: int := 1000

  /** `_weightLimit`, `_period` and `_countBeforeResp`. */
  datatype Config = Config(weightLimit: int, period: int, calculateBeforeResp: bool)

  /** The second constructor argument; `None` fields are `undefined`. */
  datatype Options = Options(weightLimit: Option<int>, period: Option<int>, calculateBeforeResp: Option<bool>)

  /**
   * The first constructor argument: a client instance (a function) or nothing,
   * or a plain options object. A `countBeforeResp` of `true` takes part in the
   * limit comparisons as the number 1.
   */
  datatype FirstArgument =
    | NotAnObject
    | OptionsObject(weightLimit: Option<int>, period: Option<int>, countBeforeResp: Option<int>)

  /** `options || {}`. */
  function Given(options: Option<Options>): Options
  {
    if options.Some? then options.value else Options(None, None, None)
  }

  function OrDefault(v: Option<int>, d: int): int
  {
    if v.Some? then v.value else d
  }

  /**
   * The constructor. Destructuring defaults replace only `undefined` options.
   * An options object passed first can change only the weight limit: each of
   * its truthy `weightLimit`, `period` and `countBeforeResp` is written into
   * `weightLimit` in that order, and the window and counting mode always come
   * from the second argument.
   */
  function Construct(first: FirstArgument, options: Option<Options>): (c: Config)
    ensures var o := Given(options);
      && c.period == OrDefault(o.period, DefaultPeriod)
      && c.calculateBeforeResp == (o.calculateBeforeResp.Some? && o.calculateBeforeResp.value)
    ensures first.NotAnObject? ==>
      c.weightLimit == OrDefault(Given(options).weightLimit, DefaultWeightLimit)
    ensures first.OptionsObject? && Truthy(first.countBeforeResp) ==> c.weightLimit == first.countBeforeResp.value
    ensures first.OptionsObject? && !Truthy(first.countBeforeResp) && Truthy(first.period) ==>
      c.weightLimit == first.period.value
    ensures first.OptionsObject? && !Truthy(first.countBeforeResp) && !Truthy(first.period) && Truthy(first.weightLimit) ==>
      c.weightLimit == first.weightLimit.value
    ensures first.OptionsObject? && !Truthy(first.countBeforeResp) && !Truthy(first.period) && !Truthy(first.weightLimit) ==>
      c.weightLimit == OrDefault(Given(options).weightLimit, DefaultWeightLimit)
  {
    var o := Given(options);
    var limit := OrDefault(o.weightLimit, DefaultWeightLimit);
    var base := Config(limit, OrDefault(o.period, DefaultPeriod),
                       o.calculateBeforeResp.Some? && o.calculateBeforeResp.value);
    match first
    case NotAnObject => base
    case OptionsObject(w, p, b) =>
      var l1 := if Truthy(w) then w.value else limit;
      var l2 := if Truthy(p) then p.value else l1;
      var l3 := if Truthy(b) then b.value else l2;
      base.(weightLimit := l3)
  }

  /**
   * An options object passed first with only `period` set: its window ends up
   * as the weight limit and the window stays at one second.
   */
  lemma FirstArgumentPeriodMisplaced(p: int)
    requires p != 0
    ensures Construct(OptionsObject(None, Some(p), None), None) == Config(p, DefaultPeriod, false)
  {
  }

  /**
   * The constructor as its first-argument branch is evidently meant to work:
   * each truthy option of an object passed first overrides the setting of the
   * same name, so an object passed first acts like the same options passed second.
   */
  function ConstructIntended(first: FirstArgument, options: Option<Options>): (c: Config)
    ensures first.NotAnObject? ==> c == Construct(first, options)
    ensures first.OptionsObject? && Truthy(first.period) ==> c.period == first.period.value
    ensures first.OptionsObject? && Truthy(first.weightLimit) ==> c.weightLimit == first.weightLimit.value
    ensures first.OptionsObject? && Truthy(first.countBeforeResp) ==> c.calculateBeforeResp
    ensures first.OptionsObject? && !Truthy(first.weightLimit) ==> c.weightLimit == Construct(NotAnObject, options).weightLimit
    ensures first.OptionsObject? && !Truthy(first.period) ==> c.period == Construct(NotAnObject, options).period
  {
    var base := Construct(NotAnObject, options);
    match first
    case NotAnObject => base
    case OptionsObject(w, p, b) =>
      Config(if Truthy(w) then w.value else base.weightLimit,
             if Truthy(p) then p.value else base.period,
             Truthy(b) || base.calculateBeforeResp)
  }

  /** With the intended constructor, options passed first or second configure the same limiter. */
  lemma OptionsFirstOrSecond(w: int, p: int)
    requires w != 0 && p != 0
    ensures ConstructIntended(OptionsObject(Some(w), Some(p), Some(1)), None)
         == ConstructIntended(NotAnObject, Some(Options(Some(w), Some(p), Some(true))))
    ensures ConstructIntended(OptionsObject(Some(w), Some(p), None), None)
         == ConstructIntended(NotAnObject, Some(Options(Some(w), Some(p), None)))
  {
  }

  function SetPeriod(c: Config, period: int): (c': Config)
    ensures GetPeriod(c') == period
    ensures GetWeightLimit(c') == GetWeightLimit(c) && c'.calculateBeforeResp == c.calculateBeforeResp
  {
    c.(period := period)
  }

  function GetPeriod(c: Config): int { c.period }

  function SetWeightLimit(c: Config, weightLimit: int): (c': Config)
    ensures GetWeightLimit(c') == weightLimit
    ensures GetPeriod(c') == GetPeriod(c) && c'.calculateBeforeResp == c.calculateBeforeResp
  {
    c.(weightLimit := weightLimit)
  }

  function GetWeightLimit(c: Config): int { c.weightLimit }

  /** The prefix `s[..i+1]` weighs enough that `demand` minus it drops below `limit`. */
  predicate Relieves(s: seq<Entry>, i: nat, demand: int, limit: int)
    requires i < |s|
  {
    demand - WeightOf(s[..i + 1]) < limit
  }

  /** `i` is the first index at which the running weight relieves the demand. */
  predicate FirstRelief(s: seq<Entry>, i: nat, demand: int, limit: int)
  {
    && i < |s|
    && Relieves(s, i, demand, limit)
    && forall j :: 0 <= j < i ==> !Relieves(s, j, demand, limit)
  }

  lemma PrefixStep(s: seq<Entry>, a: nat)
    requires a < |s|
    ensures WeightOf(s[..a + 1]) == WeightOf(s[..a]) + s[a].weight
  {
    assert s[..a + 1] == s[..a] + [s[a]];
    WeightWhereAppend(s[..a], [s[a]], Any);
    assert [s[a]][1..] == [];
  }

  /**
   * The scanning loop of `calcWeights` from index `a` on, with `weights` the
   * weight accumulated so far: the first index whose running weight relieves
   * `demand` (the ledger total plus the new weight), or none.
   */
  function Scan(s: seq<Entry>, a: nat, weights: int, demand: int, limit: int): (r: Option<nat>)
    requires a <= |s| && weights == WeightOf(s[..a])
    ensures r.Some? ==> a <= r.value < |s| && Relieves(s, r.value, demand, limit)
    ensures r.Some? ==> forall j :: a <= j < r.value ==> !Relieves(s, j, demand, limit)
    ensures r.None? ==> forall j :: a <= j < |s| ==> !Relieves(s, j, demand, limit)
    decreases |s| - a
  {
    if a == |s| then None
    else
      PrefixStep(s, a);
      var w := weights + s[a].weight;
      if demand - w < limit then Some(a) else Scan(s, a + 1, w, demand, limit)
  }

  /** The answer of `calcWeights` and the ledger after it (sorted in place on the delay path). */
  datatype Availability = Availability(answer: Answer, ledger: seq<Entry>)

  /** The ledger total plus the candidate's weight. */
  function Demand(l: seq<Entry>, w: int): int { WeightOf(l) + w }

  /** The three branches of `calcWeights`, decided on the sums. */
  predicate Fits(l: seq<Entry>, c: Config, w: int) { WeightOf(l) + w < c.weightLimit }

  predicate Stuck(l: seq<Entry>, c: Config, w: int) { !Fits(l, c, w) && UnfinishedWeight(l) + w >= c.weightLimit }

  predicate Waits(l: seq<Entry>, c: Config, w: int) { !Fits(l, c, w) && !Stuck(l, c, w) }

  /**
   * `calcWeights(newWeight)` on ledger `l`: 0 when the total plus the new
   * weight fits, -1 when the unfinished weight alone plus the new weight
   * does not, and otherwise the ledger is sorted newest first (all entries,
   * finished or not) and the answer is the remaining window of the first entry
   * at which the running weight relieves the demand. The code throws when its
   * delay variable still holds its initial -2 after the scan: when no entry
   * relieves (impossible while weights are non-negative) and also when the
   * computed delay happens to be exactly -2.
   */
  function CalcWeights(l: seq<Entry>, c: Config, now: int, w: int): (r: Availability)
    ensures Fits(l, c, w) ==> r.answer == Code(0) && r.ledger == l
    ensures Stuck(l, c, w) ==> r.answer == Code(-1) && r.ledger == l
    ensures Waits(l, c, w) ==> r.ledger == Sort(l) && multiset(r.ledger) == multiset(l) && NewestFirst(r.ledger)
    ensures Waits(l, c, w) && r.answer.Code? ==>
      && r.answer.n != -2
      && exists i: nat :: FirstRelief(r.ledger, i, Demand(l, w), c.weightLimit)
           && r.answer.n == c.period - (now - r.ledger[i].millis)
    ensures Waits(l, c, w) && r.answer == Missing ==>
      || (forall j :: 0 <= j < |r.ledger| ==> !Relieves(r.ledger, j, Demand(l, w), c.weightLimit))
      || (exists i: nat :: FirstRelief(r.ledger, i, Demand(l, w), c.weightLimit)
            && c.period - (now - r.ledger[i].millis) == -2)
    ensures NonNegative(l) && Waits(l, c, w) ==>
      exists i: nat :: FirstRelief(r.ledger, i, Demand(l, w), c.weightLimit)
  {
    var total := WeightOf(l);
    if total + w < c.weightLimit then Availability(Code(0), l)
    else if UnfinishedWeight(l) + w >= c.weightLimit then Availability(Code(-1), l)
    else
      var sorted := Sort(l);
      assert sorted[..0] == [];
      WholeLedgerRelieves(l, c, w);
      match Scan(sorted, 0, 0, Demand(l, w), c.weightLimit)
      case None => Availability(Missing, sorted)
      case Some(i) =>
        assert FirstRelief(sorted, i, Demand(l, w), c.weightLimit);
        var delay := c.period - (now - sorted[i].millis);
        Availability(if delay == -2 then Missing else Code(delay), sorted)
  }

  /** `isAvailable(newWeight)`: `updateLasts` and then `calcWeights`. */
  function IsAvailable(l: seq<Entry>, c: Config, now: int, w: int): (r: Availability)
    ensures var kept := Prune(l, now, c.period, c.calculateBeforeResp);
      && multiset(r.ledger) == multiset(kept)
      && (NonNegative(l) ==>
          && (r.answer == Code(0) <==> Fits(kept, c, w))
          && (r.answer == Code(-1) <==> Stuck(kept, c, w))
          && (Waits(kept, c, w) ==> r.answer.Code? && r.answer.n >= 1))
  {
    var kept := Prune(l, now, c.period, c.calculateBeforeResp);
    assert NonNegative(l) ==> var r := CalcWeights(kept, c, now, w);
      && (r.answer == Code(0) <==> Fits(kept, c, w))
      && (r.answer == Code(-1) <==> Stuck(kept, c, w))
      && (Waits(kept, c, w) ==> r.answer.Code? && r.answer.n >= 1)
    by {
      if NonNegative(l) {
        NonNegativeSelected(l, kept);
        PrunedAllRetained(l, now, c.period, c.calculateBeforeResp);
        AnswerIsExhaustive(kept, c, now, w);
      }
    }
    CalcWeights(kept, c, now, w)
  }

  /** On non-negative weights `isAvailable` never throws and leaves non-negative weights. */
  lemma IsAvailableKeepsNonNegative(l: seq<Entry>, c: Config, now: int, w: int)
    requires NonNegative(l)
    ensures IsAvailable(l, c, now, w).answer.Code?
    ensures NonNegative(IsAvailable(l, c, now, w).ledger)
  {
    var kept := Prune(l, now, c.period, c.calculateBeforeResp);
    NonNegativeSelected(l, kept);
    var r := IsAvailable(l, c, now, w);
    forall e | e in r.ledger
      ensures e in kept
    {
      assert e in multiset(r.ledger);
    }
    NonNegativeSelected(kept, r.ledger);
  }

  lemma PrunedAllRetained(l: seq<Entry>, now: int, period: int, countEarly: bool)
    ensures AllRetained(Prune(l, now, period, countEarly), now, period, countEarly)
  {
    var r := Prune(l, now, period, countEarly);
    forall i | 0 <= i < |r|
      ensures Retained(r[i], now, period, countEarly)
    {
      assert r[i] in r;
    }
  }

  /** A ledger with no finished entry has no finished weight. */
  lemma {:induction false} NoFinishedWeight(s: seq<Entry>)
    requires forall j :: 0 <= j < |s| ==> !s[j].finished
    ensures FinishedWeight(s) == 0
  {
    if |s| > 0 {
      NoFinishedWeight(s[1..]);
    }
  }

  lemma FinishedWithinPrefix(s: seq<Entry>, i: nat)
    requires i <= |s| && NonNegative(s)
    requires forall j :: i <= j < |s| ==> !s[j].finished
    ensures FinishedWeight(s) <= WeightOf(s[..i])
  {
    assert s == s[..i] + s[i..];
    WeightWhereAppend(s[..i], s[i..], Finished);
    NoFinishedWeight(s[i..]);
    assert NonNegative(s[..i]);
    WeightWhereBounds(s[..i], Finished);
  }

  /**
   * When the delay path is taken on non-negative weights, the running weight
   * over the whole sorted ledger relieves the demand, so the scan finds an
   * index and `calcWeights` does not throw.
   */
  lemma WholeLedgerRelieves(l: seq<Entry>, c: Config, w: int)
    ensures NonNegative(l) && Waits(l, c, w) ==>
      |Sort(l)| > 0 && Relieves(Sort(l), |Sort(l)| - 1, Demand(l, w), c.weightLimit)
  {
    if NonNegative(l) && Waits(l, c, w) {
      var s := Sort(l);
      WeightWhereBounds(l, Unfinished);
      SortKeepsWeight(l, Any);
      assert s[..|s|] == s;
    }
  }

  /** Every entry of the sorted ledger comes from the ledger. */
  lemma SortedFromLedger(l: seq<Entry>)
    ensures forall j :: 0 <= j < |Sort(l)| ==> Sort(l)[j] in l
    ensures NonNegative(l) ==> NonNegative(Sort(l))
  {
    var s := Sort(l);
    forall j | 0 <= j < |s|
      ensures s[j] in l
    {
      assert s[j] in multiset(s);
    }
  }

  /**
   * With the unfinished weight below the demand's limit, the first relieving
   * index cannot be followed by unfinished entries only: some entry at or
   * after it is finished.
   */
  lemma FinishedAtOrAfterRelief(s: seq<Entry>, i: nat, w: int, limit: int)
    requires NonNegative(s) && i < |s|
    requires WeightOf(s) + w >= limit && UnfinishedWeight(s) + w < limit
    requires i > 0 ==> !Relieves(s, i - 1, WeightOf(s) + w, limit)
    ensures exists j :: i <= j < |s| && s[j].finished
  {
    if forall j :: i <= j < |s| ==> !s[j].finished {
      FinishedWithinPrefix(s, i);
      WeightSplits(s);
    }
  }

  /** The delay path names the first relieving index of the sorted ledger. */
  lemma DelayPath(l: seq<Entry>, c: Config, now: int, w: int) returns (i: nat)
    requires NonNegative(l) && Waits(l, c, w)
    ensures CalcWeights(l, c, now, w).ledger == Sort(l)
    ensures FirstRelief(Sort(l), i, Demand(l, w), c.weightLimit)
    ensures var delay := c.period - (now - Sort(l)[i].millis);
      CalcWeights(l, c, now, w).answer == if delay == -2 then Missing else Code(delay)
  {
    var r := CalcWeights(l, c, now, w);
    i :| FirstRelief(r.ledger, i, Demand(l, w), c.weightLimit);
    if r.answer.Code? {
      var k: nat :| FirstRelief(r.ledger, k, Demand(l, w), c.weightLimit) && r.answer.n == c.period - (now - r.ledger[k].millis);
      FirstReliefUnique(r.ledger, i, k, Demand(l, w), c.weightLimit);
    } else {
      assert Relieves(r.ledger, i, Demand(l, w), c.weightLimit);
      var k: nat :| FirstRelief(r.ledger, k, Demand(l, w), c.weightLimit) && c.period - (now - r.ledger[k].millis) == -2;
      FirstReliefUnique(r.ledger, i, k, Demand(l, w), c.weightLimit);
    }
  }

  /** The scan stops at one index only. */
  lemma FirstReliefUnique(s: seq<Entry>, i: nat, k: nat, demand: int, limit: int)
    requires FirstRelief(s, i, demand, limit) && FirstRelief(s, k, demand, limit)
    ensures i == k
  {
  }

  /**
   * On a pruned ledger of non-negative weights the delay path yields a delay
   * of at least one millisecond: the relieving entry is no older than some
   * finished entry, and a finished entry is retained only while it is younger
   * than the window.
   */
  lemma {:induction false} DelayIsPositive(l: seq<Entry>, c: Config, now: int, w: int)
    requires NonNegative(l) && AllRetained(l, now, c.period, c.calculateBeforeResp) && Waits(l, c, w)
    ensures CalcWeights(l, c, now, w).answer.Code? && CalcWeights(l, c, now, w).answer.n >= 1
  {
    var i := DelayPath(l, c, now, w);
    ReliefIsRecent(l, c, now, w, i);
  }

  /** The relieving entry of a pruned ledger is younger than the window. */
  lemma ReliefIsRecent(l: seq<Entry>, c: Config, now: int, w: int, i: nat)
    requires NonNegative(l) && AllRetained(l, now, c.period, c.calculateBeforeResp) && Waits(l, c, w)
    requires FirstRelief(Sort(l), i, Demand(l, w), c.weightLimit)
    ensures now - Sort(l)[i].millis < c.period
  {
    var s := Sort(l);
    SortKeepsWeight(l, Any);
    SortKeepsWeight(l, Unfinished);
    SortedFromLedger(l);
    assert Demand(l, w) == WeightOf(s) + w;
    if i > 0 {
      assert 0 <= i - 1 < i;
      assert !Relieves(s, i - 1, Demand(l, w), c.weightLimit);
    }
    FinishedAtOrAfterRelief(s, i, w, c.weightLimit);
    RetainedFinishedAreYoung(l, now, c.period, c.calculateBeforeResp);
    SortKeepsMembers(l);
    YoungFinishedBehind(s, i, now, c.period);
  }

  /** A finished entry survives `updateLasts` only while it is inside the window. */
  lemma RetainedFinishedAreYoung(l: seq<Entry>, now: int, period: int, countEarly: bool)
    requires AllRetained(l, now, period, countEarly)
    ensures forall e :: e in l && e.finished ==> now - e.millis < period
  {
    forall e | e in l && e.finished
      ensures now - e.millis < period
    {
      var y :| 0 <= y < |l| && l[y] == e;
      assert Retained(l[y], now, period, countEarly);
    }
  }

  /** In newest-first order an entry is no older than a young finished entry behind it. */
  lemma YoungFinishedBehind(s: seq<Entry>, i: nat, now: int, period: int)
    requires NewestFirst(s) && i < |s|
    requires exists j :: i <= j < |s| && s[j].finished
    requires forall e :: e in s && e.finished ==> now - e.millis < period
    ensures now - s[i].millis < period
  {
    var j :| i <= j < |s| && s[j].finished;
    assert s[j] in s;
  }

  /**
   * The delay never exceeds the window while no entry lies in the future; on a
   * ledger that is not pruned the delay may instead be the -2 the code throws on.
   */
  lemma {:induction false} DelayWithinWindow(l: seq<Entry>, c: Config, now: int, w: int)
    requires NonNegative(l) && Waits(l, c, w)
    requires forall k :: 0 <= k < |l| ==> l[k].millis <= now
    ensures CalcWeights(l, c, now, w).answer.Code? ==> CalcWeights(l, c, now, w).answer.n <= c.period
  {
    var s := Sort(l);
    var i := DelayPath(l, c, now, w);
    SortedFromLedger(l);
    assert s[i] in l;
  }

  /**
   * On a pruned ledger of non-negative weights the answer is 0 exactly when
   * the total fits, -1 exactly when the unfinished weight blocks, and
   * otherwise a delay of at least one millisecond.
   */
  lemma AnswerIsExhaustive(l: seq<Entry>, c: Config, now: int, w: int)
    requires NonNegative(l) && AllRetained(l, now, c.period, c.calculateBeforeResp)
    ensures var r := CalcWeights(l, c, now, w);
      && (r.answer == Code(0) <==> Fits(l, c, w))
      && (r.answer == Code(-1) <==> Stuck(l, c, w))
      && (Waits(l, c, w) ==> r.answer.Code? && r.answer.n >= 1)
  {
    if Waits(l, c, w) {
      DelayIsPositive(l, c, now, w);
    }
  }

  /**
   * A candidate weighing at least the limit is answered -1 on any ledger of
   * non-negative weights: it is never sent by `handleReq` or popped by `onFinish`.
   */
  lemma OversizedIsBlocked(l: seq<Entry>, c: Config, now: int, w: int)
    requires NonNegative(l) && w >= c.weightLimit
    ensures CalcWeights(l, c, now, w).answer == Code(-1)
    ensures IsAvailable(l, c, now, w).answer == Code(-1)
  {
    WeightWhereBounds(l, Unfinished);
    var kept := Prune(l, now, c.period, c.calculateBeforeResp);
    NonNegativeSelected(l, kept);
    WeightWhereBounds(kept, Unfinished);
  }

  /** Keeps the entries issued or finished at `m` or later. */
  function Since(m: int): Entry -> bool
  {
    (e: Entry) => e.millis >= m
  }

  /** The weight of entries whose `millis` is at least `m`. */
  function WeightSince(l: seq<Entry>, m: int): int
  {
    WeightWhere(l, Since(m))
  }

  /** On a newest-first ledger the entries at or after `m` form a prefix. */
  lemma {:induction false} SinceIsPrefix(s: seq<Entry>, m: int) returns (k: nat)
    requires NewestFirst(s)
    ensures k <= |s|
    ensures WeightSince(s, m) == WeightOf(s[..k])
    ensures forall j :: 0 <= j < k ==> s[j].millis >= m
    ensures forall j :: k <= j < |s| ==> s[j].millis < m
  {
    if |s| == 0 {
      k := 0;
      assert s[..0] == [];
    } else if s[0].millis >= m {
      assert NewestFirst(s[1..]);
      var k' := SinceIsPrefix(s[1..], m);
      k := k' + 1;
      assert s[..k] == [s[0]] + s[1..][..k'];
      assert ([s[0]] + s[1..][..k'])[1..] == s[1..][..k'];
    } else {
      k := 0;
      assert s[..0] == [];
      NothingSince(s, m);
    }
  }

  lemma {:induction false} NothingSince(s: seq<Entry>, m: int)
    requires NewestFirst(s) && |s| > 0 && s[0].millis < m
    ensures WeightSince(s, m) == 0
  {
    if |s| > 1 {
      assert NewestFirst(s[1..]);
      assert s[1..][0] == s[1];
      NothingSince(s[1..], m);
    } else {
      assert s[1..] == [];
      assert WeightWhere(s[1..], Since(m)) == 0;
    }
  }

  lemma PrefixGrows(s: seq<Entry>, i: nat, k: nat)
    requires i <= k <= |s| && NonNegative(s)
    ensures WeightOf(s[..i]) <= WeightOf(s[..k])
  {
    assert s[..k] == s[..i] + s[i..k];
    WeightWhereAppend(s[..i], s[i..k], Any);
    assert NonNegative(s[i..k]);
    WeightWhereBounds(s[i..k], Any);
  }

  /** The entries at or after the relieving entry's `millis` outweigh the excess. */
  lemma ReliefOutweighsExcess(s: seq<Entry>, i: nat, demand: int, limit: int)
    requires NewestFirst(s) && NonNegative(s) && FirstRelief(s, i, demand, limit)
    ensures WeightSince(s, s[i].millis) > demand - limit
  {
    var k := SinceIsPrefix(s, s[i].millis);
    PrefixGrows(s, i + 1, k);
  }

  /** The entries strictly newer than the relieving entry do not outweigh it. */
  lemma NewerWithinExcess(s: seq<Entry>, i: nat, demand: int, limit: int, m: int)
    requires NewestFirst(s) && FirstRelief(s, i, demand, limit) && demand >= limit
    requires m > s[i].millis
    ensures WeightSince(s, m) <= demand - limit
  {
    var k := SinceIsPrefix(s, m);
    if k == 0 {
      assert s[..0] == [];
    } else {
      assert !Relieves(s, k - 1, demand, limit);
    }
  }

  /**
   * What the delay path computes, stated without the sort: with `excess` the
   * weight that must age out, the delay is the remaining window of the largest
   * `millis` value `m` such that the entries at `m` or newer weigh more than
   * `excess`. It is keyed to the newest entries (finished or not), although
   * the oldest finished ones are those that age out first.
   */
  lemma {:induction false} DelayKeyedToNewest(l: seq<Entry>, c: Config, now: int, w: int)
    requires NonNegative(l) && Waits(l, c, w)
    ensures var excess := Demand(l, w) - c.weightLimit;
      exists e :: e in l
        && (var delay := c.period - (now - e.millis);
            CalcWeights(l, c, now, w).answer == if delay == -2 then Missing else Code(delay))
        && WeightSince(l, e.millis) > excess
        && forall m :: m > e.millis ==> WeightSince(l, m) <= excess
  {
    var i := DelayPath(l, c, now, w);
    ReliefIsNewestHeavy(l, c, w, i);
    SortedFromLedger(l);
    assert Sort(l)[i] in l;
  }

  /** The relieving entry is the newest `millis` whose entries at or after it outweigh the excess. */
  lemma ReliefIsNewestHeavy(l: seq<Entry>, c: Config, w: int, i: nat)
    requires NonNegative(l) && Waits(l, c, w)
    requires FirstRelief(Sort(l), i, Demand(l, w), c.weightLimit)
    ensures WeightSince(l, Sort(l)[i].millis) > Demand(l, w) - c.weightLimit
    ensures forall m :: m > Sort(l)[i].millis ==> WeightSince(l, m) <= Demand(l, w) - c.weightLimit
  {
    var s := Sort(l);
    var demand := Demand(l, w);
    var e := s[i];
    SortedFromLedger(l);
    ReliefOutweighsExcess(s, i, demand, c.weightLimit);
    SortKeepsWeight(l, Since(e.millis));
    forall m | m > e.millis
      ensures WeightSince(l, m) <= demand - c.weightLimit
    {
      NewerWithinExcess(s, i, demand, c.weightLimit, m);
      SortKeepsWeight(l, Since(m));
    }
  }

  /** Keeps the finished entries whose `millis` is at most `m`: those aged out once `m` has. */
  function FinishedBy(m: int): Entry -> bool
  {
    (e: Entry) => e.finished && e.millis <= m
  }

  /** Keeps every entry that `FinishedBy(m)` does not. */
  function NotFinishedBy(m: int): Entry -> bool
  {
    (e: Entry) => !(e.finished && e.millis <= m)
  }

  /** The finished weight that has aged out once the entries finished at or before `m` have. */
  function FreedBy(l: seq<Entry>, m: int): int
  {
    WeightWhere(l, FinishedBy(m))
  }

  /**
   * The earliest finish time, among the finished entries of `cands`, by which
   * more than `excess` of `l`'s finished weight has aged out.
   */
  function EarliestRelief(l: seq<Entry>, cands: seq<Entry>, excess: int): (r: Option<int>)
    ensures r.Some? ==> exists e :: e in cands && e.finished && e.millis == r.value && FreedBy(l, r.value) > excess
    ensures r.Some? ==> forall e :: e in cands && e.finished && FreedBy(l, e.millis) > excess ==> r.value <= e.millis
    ensures r.None? ==> forall e :: e in cands && e.finished ==> FreedBy(l, e.millis) <= excess
  {
    if |cands| == 0 then None
    else
      var e := cands[0];
      var rest := EarliestRelief(l, cands[1..], excess);
      assert forall x :: x in cands ==> x == e || x in cands[1..];
      if e.finished && FreedBy(l, e.millis) > excess then
        if rest.Some? && rest.value < e.millis then rest else Some(e.millis)
      else rest
  }

  /**
   * `calcWeights` with a corrected delay: the time until the earliest instant at
   * which enough finished weight has aged out, that is, at which the finished
   * weight aged out by then exceeds the excess. When no instant suffices the
   * call is blocked (-1).
   */
  function CalcWeightsOldestFirst(l: seq<Entry>, c: Config, now: int, w: int): (r: Answer)
    ensures Fits(l, c, w) ==> r == Code(0)
    ensures Stuck(l, c, w) ==> r == Code(-1)
    ensures r.Code?
    ensures Waits(l, c, w) && r != Code(-1) ==>
      exists e :: e in l && e.finished && r.n == c.period - (now - e.millis)
        && FreedBy(l, e.millis) > Demand(l, w) - c.weightLimit
  {
    if Fits(l, c, w) then Code(0)
    else if Stuck(l, c, w) then Code(-1)
    else
      match EarliestRelief(l, l, Demand(l, w) - c.weightLimit)
      case None => Code(-1)
      case Some(m) => Code(c.period - (now - m))
  }

  /** On a ledger where finished weight covers the excess, some finish time relieves it. */
  lemma OldestFirstFindsRelief(l: seq<Entry>, c: Config, w: int)
    requires NonNegative(l) && Waits(l, c, w) && |l| > 0
    ensures EarliestRelief(l, l, Demand(l, w) - c.weightLimit).Some?
  {
    var excess := Demand(l, w) - c.weightLimit;
    var top := Latest(l);
    WeightSplits(l);
    WeightWhereBounds(l, Unfinished);
    if top.None? {
      NoFinishedWeight(l);
    } else {
      var e := top.value;
      assert forall i :: 0 <= i < |l| ==> Finished(l[i]) == FinishedBy(e.millis)(l[i]);
      WeightWhereSame(l, Finished, FinishedBy(e.millis));
    }
  }

  /** The finished entry with the largest `millis`, if any. */
  function Latest(l: seq<Entry>): (r: Option<Entry>)
    ensures r.Some? ==> r.value in l && r.value.finished
    ensures r.Some? ==> forall i :: 0 <= i < |l| && l[i].finished ==> l[i].millis <= r.value.millis
    ensures r.None? ==> forall i :: 0 <= i < |l| ==> !l[i].finished
  {
    if |l| == 0 then None
    else
      var rest := Latest(l[1..]);
      assert forall i :: 1 <= i < |l| ==> l[i] == l[1..][i - 1];
      if !l[0].finished then rest
      else if rest.Some? && rest.value.millis > l[0].millis then rest
      else Some(l[0])
  }

  /** The finished entry with the largest `millis` not beyond `m`, if any. */
  function LatestBy(l: seq<Entry>, m: int): (r: Option<Entry>)
    ensures r.Some? ==> r.value in l && r.value.finished && r.value.millis <= m
    ensures r.Some? ==> forall i :: 0 <= i < |l| && l[i].finished && l[i].millis <= m ==> l[i].millis <= r.value.millis
    ensures r.None? ==> forall i :: 0 <= i < |l| ==> !FinishedBy(m)(l[i])
  {
    if |l| == 0 then None
    else
      var rest := LatestBy(l[1..], m);
      assert forall i :: 1 <= i < |l| ==> l[i] == l[1..][i - 1];
      if !(l[0].finished && l[0].millis <= m) then rest
      else if rest.Some? && rest.value.millis > l[0].millis then rest
      else Some(l[0])
  }

  lemma {:induction false} NothingSelected(l: seq<Entry>, p: Entry -> bool)
    requires forall i :: 0 <= i < |l| ==> !p(l[i])
    ensures WeightWhere(l, p) == 0
  {
    if |l| > 0 {
      assert forall i :: 0 <= i < |l| - 1 ==> l[1..][i] == l[i + 1];
      NothingSelected(l[1..], p);
    }
  }

  /**
   * Freed weight only changes at finish times: if more than `excess >= 0` has
   * aged out by `m`, it already has by the finish time of some entry at or before `m`.
   */
  lemma FreedAtSomeFinish(l: seq<Entry>, m: int, excess: int) returns (e: Entry)
    requires excess >= 0 && FreedBy(l, m) > excess
    ensures e in l && e.finished && e.millis <= m && FreedBy(l, e.millis) > excess
  {
    var top := LatestBy(l, m);
    if top.None? {
      NothingSelected(l, FinishedBy(m));
      assert false;
    }
    e := top.value;
    assert forall i :: 0 <= i < |l| ==> FinishedBy(m)(l[i]) == FinishedBy(e.millis)(l[i]);
    WeightWhereSame(l, FinishedBy(m), FinishedBy(e.millis));
  }

  /** The corrected delay path: the earliest relieving finish time exists and sets the delay. */
  lemma OldestFirstDelay(l: seq<Entry>, c: Config, now: int, w: int) returns (m: int)
    requires NonNegative(l) && Waits(l, c, w)
    ensures EarliestRelief(l, l, Demand(l, w) - c.weightLimit) == Some(m)
    ensures CalcWeightsOldestFirst(l, c, now, w) == Code(c.period - (now - m))
  {
    assert |l| > 0 by {
      if |l| == 0 {
        WeightWhereBounds(l, Unfinished);
      }
    }
    OldestFirstFindsRelief(l, c, w);
    m := EarliestRelief(l, l, Demand(l, w) - c.weightLimit).value;
  }

  /** Once the corrected delay has passed, pruning leaves room for the candidate. */
  lemma FitsAfterOldestFirstDelay(l: seq<Entry>, c: Config, now: int, w: int)
    requires NonNegative(l) && Waits(l, c, w)
    ensures Fits(Prune(l, now + CalcWeightsOldestFirst(l, c, now, w).n, c.period, c.calculateBeforeResp), c, w)
  {
    var m := OldestFirstDelay(l, c, now, w);
    var T := now + CalcWeightsOldestFirst(l, c, now, w).n;
    assert T - m == c.period;
    forall i | 0 <= i < |l|
      ensures RetainedAt(T, c.period, c.calculateBeforeResp)(l[i]) ==> NotFinishedBy(m)(l[i])
    {
    }
    WeightWhereMono(l, RetainedAt(T, c.period, c.calculateBeforeResp), NotFinishedBy(m));
    WeightWhereComplement(l, FinishedBy(m), NotFinishedBy(m));
    PruneWeight(l, T, c.period, c.calculateBeforeResp);
  }

  /**
   * The corrected delay is the shortest wait after which the candidate fits,
   * if nothing else happens meanwhile: pruning at `now + d` leaves room for it,
   * and (when entries count until they complete) pruning at any instant from
   * `now` up to `now + d` does not. On a pruned ledger the delay is at least
   * one millisecond.
   */
  lemma OldestFirstWaitIsMinimal(l: seq<Entry>, c: Config, now: int, w: int)
    requires NonNegative(l) && Waits(l, c, w)
    ensures var d := CalcWeightsOldestFirst(l, c, now, w).n;
      && Fits(Prune(l, now + d, c.period, c.calculateBeforeResp), c, w)
      && (!c.calculateBeforeResp ==>
            forall T :: now <= T < now + d ==> !Fits(Prune(l, T, c.period, false), c, w))
      && (AllRetained(l, now, c.period, c.calculateBeforeResp) ==> d >= 1)
  {
    var m := OldestFirstDelay(l, c, now, w);
    FitsAfterOldestFirstDelay(l, c, now, w);
    var d := c.period - (now - m);
    if !c.calculateBeforeResp {
      forall T | now <= T < now + d
        ensures !Fits(Prune(l, T, c.period, false), c, w)
      {
        EarlierPruneBlocks(l, c, T, w, m);
      }
    }
    if AllRetained(l, now, c.period, c.calculateBeforeResp) {
      var e :| e in l && e.finished && e.millis == m && FreedBy(l, m) > Demand(l, w) - c.weightLimit;
      var k :| 0 <= k < |l| && l[k] == e;
      assert Retained(l[k], now, c.period, c.calculateBeforeResp);
    }
  }

  /** Before the corrected delay has passed, too little finished weight has aged out. */
  lemma EarlierPruneBlocks(l: seq<Entry>, c: Config, T: int, w: int, m: int)
    requires NonNegative(l) && Waits(l, c, w)
    requires EarliestRelief(l, l, Demand(l, w) - c.weightLimit) == Some(m)
    requires T - m < c.period
    ensures !Fits(Prune(l, T, c.period, false), c, w)
  {
    var excess := Demand(l, w) - c.weightLimit;
    var cut := T - c.period;
    if FreedBy(l, cut) > excess {
      var e := FreedAtSomeFinish(l, cut, excess);
    }
    assert FreedBy(l, cut) <= excess;
    forall i | 0 <= i < |l|
      ensures RetainedAt(T, c.period, false)(l[i]) == NotFinishedBy(cut)(l[i])
    {
    }
    WeightWhereSame(l, RetainedAt(T, c.period, false), NotFinishedBy(cut));
    WeightWhereComplement(l, FinishedBy(cut), NotFinishedBy(cut));
    PruneWeight(l, T, c.period, false);
  }

  /** Two finished unit entries, finished at 100 and at 900. */
  function ShortDelayLedger(): seq<Entry>
  {
    [Entry(0, 100, true, 1), Entry(1, 900, true, 1)]
  }

  /** A weight limit of 3 per second. */
  function ShortDelayConfig(): Config
  {
    Config(3, 1000, false)
  }

  lemma ShortDelaySorted()
    ensures Sort(ShortDelayLedger()) == [ShortDelayLedger()[1], ShortDelayLedger()[0]]
  {
    var l := ShortDelayLedger();
    assert l == [l[0], l[1]];
    SortTwo(l[0], l[1]);
  }

  /** Two entries in increasing `millis` order come out reversed. */
  lemma SortTwo(a: Entry, b: Entry)
    requires a.millis < b.millis
    ensures Sort([a, b]) == [b, a]
  {
    assert [a, b][1..] == [b] && [b][1..] == [];
    assert Sort([b]) == [b] by {
      assert Sort([b]) == Insert(b, Sort([]));
    }
    assert Insert(a, [b]) == [b] + Insert(a, []);
  }

  /** Three entries in increasing `millis` order come out reversed. */
  lemma SortThree(a: Entry, b: Entry, d: Entry)
    requires a.millis < b.millis < d.millis
    ensures Sort([a, b, d]) == [d, b, a]
  {
    assert [a, b, d][1..] == [b, d];
    SortTwo(b, d);
    assert Insert(a, [b]) == [b, a] by {
      assert Insert(a, []) == [a];
    }
    assert Insert(a, [d, b]) == [d] + Insert(a, [b]);
  }

  /**
   * The newest-first scan answers too early: at 1000 a call of weight 2 is told
   * to wait 100 ms, but at 1100 the entry finished at 900 still counts and the
   * call does not fit, so the timer that sends it unchecked overfills the
   * window. The oldest-first delay is 900 ms.
   */
  lemma NewestFirstDelayTooShort()
    ensures CalcWeights(ShortDelayLedger(), ShortDelayConfig(), 1000, 2).answer == Code(100)
    ensures !Fits(Prune(ShortDelayLedger(), 1100, 1000, false), ShortDelayConfig(), 2)
    ensures CalcWeightsOldestFirst(ShortDelayLedger(), ShortDelayConfig(), 1000, 2) == Code(900)
  {
    ShortDelayAsWritten();
    ShortDelayStillFull();
    ShortDelayCorrected();
  }

  lemma ShortDelaySums()
    ensures WeightOf(ShortDelayLedger()) == 2 && UnfinishedWeight(ShortDelayLedger()) == 0
    ensures WeightOf(ShortDelayLedger()[1..]) == 1
    ensures Prune(ShortDelayLedger(), 1000, 1000, false) == ShortDelayLedger()
    ensures Prune(ShortDelayLedger(), 1100, 1000, false) == ShortDelayLedger()[1..]
  {
    var l := ShortDelayLedger();
    assert l[1..] == [l[1]] && [l[1]][1..] == [];
  }

  lemma ShortDelayAsWritten()
    ensures CalcWeights(ShortDelayLedger(), ShortDelayConfig(), 1000, 2).answer == Code(100)
    ensures CalcWeights(ShortDelayLedger(), ShortDelayConfig(), 1000, 2).ledger
      == [ShortDelayLedger()[1], ShortDelayLedger()[0]]
  {
    var l := ShortDelayLedger();
    var c := ShortDelayConfig();
    ShortDelaySums();
    ShortDelaySorted();
    ShortDelayScan();
    assert Waits(l, c, 2);
  }

  lemma ShortDelayScan()
    ensures Scan(Sort(ShortDelayLedger()), 0, 0, 4, 3) == Some(1)
  {
    ShortDelaySorted();
    var l := ShortDelayLedger();
    var s := [l[1], l[0]];
    assert s[..0] == [];
    PrefixStep(s, 0);
    PrefixStep(s, 1);
    assert WeightOf(s[..1]) == 1 by {
      assert s[..1] == [l[1]] && [l[1]][1..] == [];
    }
    assert Scan(s, 0, 0, 4, 3) == Scan(s, 1, 1, 4, 3);
  }

  lemma ShortDelayStillFull()
    ensures !Fits(Prune(ShortDelayLedger(), 1100, 1000, false), ShortDelayConfig(), 2)
  {
    ShortDelaySums();
  }

  lemma ShortDelayCorrected()
    ensures CalcWeightsOldestFirst(ShortDelayLedger(), ShortDelayConfig(), 1000, 2) == Code(900)
  {
    ShortDelaySums();
    ShortDelayOldestFirst();
    assert Waits(ShortDelayLedger(), ShortDelayConfig(), 2);
  }

  lemma ShortDelayOldestFirst()
    ensures EarliestRelief(ShortDelayLedger(), ShortDelayLedger(), 1) == Some(900)
  {
    var l := ShortDelayLedger();
    assert l[1..] == [l[1]] && [l[1]][1..] == [];
    assert FreedBy(l, 100) == 1 && FreedBy(l, 900) == 2;
    assert EarliestRelief(l, [l[1]], 1) == Some(900);
  }

  /** Finished entries of weight 2 at 100 and weight 1 at 900 and at 950. */
  function LongDelayLedger(): seq<Entry>
  {
    [Entry(0, 100, true, 2), Entry(1, 900, true, 1), Entry(2, 950, true, 1)]
  }

  /**
   * The newest-first scan can also answer too late: at 1000 with a limit of 4
   * a call of weight 1 is told to wait 900 ms, although the weight-2 entry ages
   * out after 100 ms and the call fits from then on.
   */
  lemma NewestFirstDelayTooLong()
    ensures CalcWeights(LongDelayLedger(), Config(4, 1000, false), 1000, 1).answer == Code(900)
    ensures CalcWeightsOldestFirst(LongDelayLedger(), Config(4, 1000, false), 1000, 1) == Code(100)
    ensures Fits(Prune(LongDelayLedger(), 1100, 1000, false), Config(4, 1000, false), 1)
  {
    LongDelayAsWritten();
    LongDelayCorrected();
    LongDelayFitsLater();
  }

  lemma LongDelayFitsLater()
    ensures Fits(Prune(LongDelayLedger(), 1100, 1000, false), Config(4, 1000, false), 1)
  {
    var l := LongDelayLedger();
    LongDelaySums();
    assert Prune(l, 1100, 1000, false) == l[1..] by {
      assert l[1..][1..] == [l[2]] && [l[2]][1..] == [];
    }
  }

  lemma LongDelayAsWritten()
    ensures CalcWeights(LongDelayLedger(), Config(4, 1000, false), 1000, 1).answer == Code(900)
  {
    var l := LongDelayLedger();
    var c := Config(4, 1000, false);
    LongDelaySums();
    LongDelaySorted();
    LongDelayScan();
    assert Waits(l, c, 1);
  }

  lemma LongDelayCorrected()
    ensures CalcWeightsOldestFirst(LongDelayLedger(), Config(4, 1000, false), 1000, 1) == Code(100)
  {
    LongDelaySums();
    LongDelayOldestFirst();
    assert Waits(LongDelayLedger(), Config(4, 1000, false), 1);
  }

  lemma LongDelaySums()
    ensures WeightOf(LongDelayLedger()) == 4 && UnfinishedWeight(LongDelayLedger()) == 0
    ensures WeightOf(LongDelayLedger()[1..]) == 2
  {
    var l := LongDelayLedger();
    assert l[1..][1..] == [l[2]] && [l[2]][1..] == [];
  }

  lemma LongDelaySorted()
    ensures Sort(LongDelayLedger()) == [LongDelayLedger()[2], LongDelayLedger()[1], LongDelayLedger()[0]]
  {
    var l := LongDelayLedger();
    assert l == [l[0], l[1], l[2]];
    SortThree(l[0], l[1], l[2]);
  }

  lemma LongDelayScan()
    ensures Scan(Sort(LongDelayLedger()), 0, 0, 5, 4) == Some(1)
  {
    LongDelaySorted();
    var l := LongDelayLedger();
    var s := [l[2], l[1], l[0]];
    assert s[..0] == [];
    PrefixStep(s, 0);
    PrefixStep(s, 1);
    assert WeightOf(s[..1]) == 1 by {
      assert s[..1] == [l[2]] && [l[2]][1..] == [];
    }
    assert Scan(s, 0, 0, 5, 4) == Scan(s, 1, 1, 5, 4);
  }

  lemma LongDelayOldestFirst()
    ensures EarliestRelief(LongDelayLedger(), LongDelayLedger(), 1) == Some(100)
  {
    var l := LongDelayLedger();
    assert l[1..] == [l[1], l[2]] && [l[1], l[2]][1..] == [l[2]] && [l[2]][1..] == [];
    assert FreedBy(l, 100) == 2;
    assert EarliestRelief(l, [l[2]], 1) == Some(950);
    assert EarliestRelief(l, [l[1], l[2]], 1) == Some(900);
  }

  /**
   * A ledger left unpruned, with an unfinished entry issued at 998 and a
   * finished one at 990: at 2000, under a limit of 3 per second, the newest
   * entry relieves the demand and its remaining window is exactly -2, which
   * `calcWeights` cannot tell from its own "nothing found" value and throws on.
   */
  lemma SentinelDelayThrows()
    ensures var l := [Entry(0, 990, true, 1), Entry(1, 998, false, 2)];
      CalcWeights(l, Config(3, 1000, false), 2000, 0).answer == Missing
  {
    var l := [Entry(0, 990, true, 1), Entry(1, 998, false, 2)];
    var c := Config(3, 1000, false);
    assert l[1..] == [l[1]] && [l[1]][1..] == [];
    assert Waits(l, c, 0);
    var i := DelayPath(l, c, 2000, 0);
    SortTwo(l[0], l[1]);
    var s := Sort(l);
    assert s[..1] == [l[1]];
    assert FirstRelief(s, 0, Demand(l, 0), c.weightLimit);
    FirstReliefUnique(s, i, 0, Demand(l, 0), c.weightLimit);
  }
}
